=== FILE: README.md ===
# timeflow in Dafny

A model of the core of timeflow, a command-line time tracker. The user appends
lines of the form `YYYY-MM-DD HH:MM message` to a plain-text log. The program
reads the log back, pairs each record with the next record of the same day into
a timelog, and sums the durations into work and slack tables by project and log
text. It then prints a summary or a report for a day, a week, a month or a
range of dates.

The project has six modules:

- `Wrappers` (`wrappers.dfy`): `Option` and `Result`.
- `Text` (`text.dfy`): the Python string built-ins the core relies on.
  - `strip` with the C whitespace set of Python 2 `str`;
  - `rstrip('*')`;
  - `find`;
  - `split(None, n)` and `split('-')`;
  - `str(int)` and `int(str)`.
- `Calendar` (`calendar.dfy`): minute-granular date-times as a validated
  `(year, month, day, hour, minute)` record.
  - Proleptic Gregorian day ordinals, as Python's `toordinal`.
  - Adding days and ISO weekdays.
  - Fixed-width `%Y-%m-%d %H:%M` formatting and parsing.
- `Tables` (`tables.dfy`): the nested `project -> log -> seconds` dictionaries,
  the `defaultdict(lambda: defaultdict(int))` of the report, and their sums.
- `LogParser` (`log_parser.dfy`): `parse_message`, `find_slack`, the reading
  loop of `parse_lines_new`, `get_timelogs`, and the aggregation loop of
  `calculate_report_and_get_time`. The loops are methods proved against
  functions:
  - `ParseLines` against `ReadDays`;
  - `DayPairs` and `GetTimelogs` against `DayTimelogs` and `TimelogsOf`;
  - `AddDay`, `AggregateRange` and `CalculateReportAndGetTime` against
    `AddAll`, `Aggregate` and `Selected`.
- `Helpers` (`helpers.dfy`): `format_timedelta`, the week and month selectors,
  `parse_month_arg`, the lines of `print_stats` and `print_report`, the
  disabled colorizer, and `form_log_message` / `is_another_day`.

Inputs from outside the program are parameters:

- The clock (`dt.now()`) is a `DateTime` argument.
- The log file is a sequence of lines.
- The file read by `is_another_day` is an `Option` of its lines; `None` means
  it cannot be opened.
- `termcolor.colored` and `strftime('%a %d %b %Y')` are function arguments.
- The warning that `get_timelogs` logs when time runs backwards is a returned
  flag.
- Python's dictionary iteration order is arbitrary. The methods that iterate
  over days pick any remaining key. `AggregateRange` and
  `CalculateReportAndGetTime` return the visiting order as a ghost output, and
  their results are stated for that order.

Three behaviours of the code that a reader might not expect, which the model
keeps:

- `rstrip('**')` (timeflow/log_parser.py:37) removes every trailing `*`, not
  a two-character marker.
- A single-token message keeps its surrounding whitespace in the project
  (timeflow/log_parser.py:19-20).
- Sorting projects by time (timeflow/helpers.py:148-149) is Python's stable
  sort. Equal totals keep their input order (`Helpers.SortStable`).

## Model

| member | source | states |
|---|---|---|
| LogParser.ParseMessage | timeflow/log_parser.py:12-26 | `parse_message`; its three cases are stated by `ParseMessageCases`. |
| LogParser.ParseMessageCases | timeflow/log_parser.py:12-26 | With ": " in the message, project is the text before its first occurrence and `project + ": " + log == message`. Without it, a single whitespace-separated token is the project, verbatim, with an empty log. Any other message, the empty one included, gives ("Other", message). |
| LogParser.FindSlack | timeflow/log_parser.py:29-37 | The slack flag is set exactly when the project or the log ends with "**". Both names come back with no surrounding whitespace, slack or not. |
| LogParser.Clean | timeflow/log_parser.py:37 | `rstrip('**').strip()`: the cleaned name has no surrounding whitespace. What is removed is stated by `CleanIsStrip`, `CleanStars` and `CleanPlain`. |
| LogParser.CleanIsStrip | timeflow/log_parser.py:37 | Cleaning a name is `strip` applied after removing every trailing '*'. |
| LogParser.CleanStars | timeflow/log_parser.py:37 | Any run of trailing '*' is removed, not just two. |
| LogParser.CleanPlain | timeflow/log_parser.py:37 | A name with no surrounding whitespace and no trailing '*' is unchanged. |
| LogParser.SlackMarker | timeflow/log_parser.py:36-37 | Appending "**" to the project or the log makes the timelog slack, and the marker is not part of the returned names. |
| LogParser.WorkUnmarked | timeflow/log_parser.py:36-37 | Plain names without the marker pass through unchanged as work. |
| LogParser.ParseLine | timeflow/log_parser.py:64-74 | A line yields no record exactly when it is blank or starts with '#' once stripped. A kept line that `split(None, 2)` cuts into fewer than two parts is the unpacking error (`MissingTime`). A kept line whose first two parts are not a `%Y-%m-%d %H:%M` date-time is the `strptime` error (`MalformedTimestamp`). Every record's timestamp is a valid date-time of the `datetime` range. |
| LogParser.ParseLineParts | timeflow/log_parser.py:64-74 | A kept line whose `split(None, 2)` parts are a date, a time and possibly a message, where the date and time parse as `t`, reads as the record of `t` with that message, or with "" when there is no third part. |
| LogParser.ParseLineFormatted | timeflow/log_parser.py:64-72 | A line "<date> <time> <message>" with a formatted timestamp and a stripped message reads back as exactly that record; a missing message gives "". |
| LogParser.FormattedParts | timeflow/log_parser.py:66-71 | `split(None, 2)` of a formatted timestamp and message gives date, time and the message, or only date and time when the message is empty. |
| LogParser.StripFormatted | timeflow/log_parser.py:64 | Stripping a written line leaves the timestamp and the message, with no space when the message is empty. |
| LogParser.FormattedNoSpace | timeflow/log_parser.py:66 | The date and the time of a formatted timestamp are whitespace-free tokens separated by one space. |
| LogParser.CollectSucceeds | timeflow/log_parser.py:62-75 | Reading succeeds exactly when no line fails, and then yields every record in file order. |
| LogParser.CollectFirstError | timeflow/log_parser.py:66-72 | The first line that cannot be read decides the error of the whole read. |
| LogParser.CollectFailureStays | timeflow/log_parser.py:62-75 | Once a prefix of the file fails, the whole file fails with the same error. |
| LogParser.Group | timeflow/log_parser.py:73-74 | Files each record under the midnight of its day, in file order; stated by `GroupOnDay`, `GroupSameDay` and `GroupSnoc`. |
| LogParser.ReadDays | timeflow/log_parser.py:57-75 | What `parse_lines_new` returns: the first line's error, or the grouped records; the loop `ParseLines` is proved equal to it. |
| LogParser.GroupOnDay | timeflow/log_parser.py:73-74 | A day is a key exactly when some record falls on it. Its list is all of that day's records and nothing else, in file order. |
| LogParser.GroupSameDay | timeflow/log_parser.py:73-74 | Every key is a midnight with a non-empty list, and every record filed under a key was written on that day. |
| LogParser.GroupSnoc | timeflow/log_parser.py:74 | One more record is appended at the end of its own day's list, and no other day changes. |
| LogParser.ParseLines | timeflow/log_parser.py:57-75 | The reading loop returns exactly the grouped records of the file, or the first line's error. |
| LogParser.Pair | timeflow/log_parser.py:45-49 | The timelog from the previous timestamp to a record, described by that record's message; stated by `DayTimelogsAt`. |
| LogParser.DayTimelogs | timeflow/log_parser.py:43-53 | A day with n >= 1 records yields n - 1 timelogs; an empty day yields none. |
| LogParser.DayTimelogsAt | timeflow/log_parser.py:45-49 | Timelog i runs from record i's timestamp to record i+1. Its project, log and slack flag come from record i+1's message. |
| LogParser.DayTimelogsEndpoints | timeflow/log_parser.py:49 | Each timelog starts at one record's timestamp and ends at the next record's timestamp. |
| LogParser.DayPairs | timeflow/log_parser.py:44-53 | The inner loop, carrying the previous timestamp, yields the day's timelogs. It warns exactly when one of them runs backwards. |
| LogParser.TimelogsOf | timeflow/log_parser.py:40-54 | What `get_timelogs` returns: each day with at least two records, with its timelogs; stated by `TimelogsStayOnDay` and `GetTimelogs`. |
| LogParser.SomeBackwardsExists | timeflow/log_parser.py:50-52 | The warning condition holds exactly when some timelog ends before it starts. |
| LogParser.GetTimelogs | timeflow/log_parser.py:40-54 | A read error is passed on. Otherwise the result holds the timelogs of every day with at least two records, and only those days. The warning is raised exactly when some timelog runs backwards. |
| LogParser.TimelogsStayOnDay | timeflow/log_parser.py:43-54 | A day appears exactly when it has at least two records. It then holds one timelog fewer than records, and every timelog starts and ends on that day, so records of different days are never paired. |
| LogParser.DaySpan | timeflow/log_parser.py:49-53 | A day's durations add up to its last timestamp minus its first, backward steps included. |
| LogParser.AddTimelog | timeflow/log_parser.py:109-115 | One timelog's seconds go to one entry of one table and to the matching list; stated by `EntryStep` through `AggregateEntry`, and by `AddTimelogLists`. |
| LogParser.Aggregate | timeflow/log_parser.py:106-115 | The report of a sequence of timelogs taken in order; stated by `AggregateEntry`, `AggregateKeys`, `AggregateLists` and `ListsMatchTables`. |
| LogParser.AddAllAppend | timeflow/log_parser.py:106-115 | Adding timelogs in two runs gives the same report as adding them in one. |
| LogParser.AddTimelogLists | timeflow/log_parser.py:110-115 | One timelog appends its seconds to the list of its own kind and leaves the other list alone. |
| LogParser.AggregateLists | timeflow/log_parser.py:106-115 | `work_time` lists the seconds of the work timelogs and `slack_time` those of the slack timelogs, in the order they were added. |
| LogParser.KindsSplit | timeflow/log_parser.py:110-115 | Every timelog is counted as work or as slack, and not both. |
| LogParser.ListsCoverAll | timeflow/log_parser.py:109-115 | Together the two lists add up to the seconds of all the timelogs. |
| LogParser.ListsMatchTables | timeflow/log_parser.py:109-115 | `sum(work_time)` equals the sum of all entries of the work table; likewise for slack. |
| LogParser.AggregateEntry | timeflow/log_parser.py:109-115 | Each table entry holds the seconds of exactly the timelogs of that kind, project and log text. |
| LogParser.AggregateKeys | timeflow/log_parser.py:104-115 | An entry exists exactly when some timelog of that kind, project and log text was added. |
| LogParser.Selected | timeflow/log_parser.py:106-108 | The timelogs of the days in range, in the order the days are visited; stated by `SelectedStep`. |
| LogParser.SelectedStep | timeflow/log_parser.py:106-108 | A day contributes its timelogs exactly when `date_from <= day <= date_to`, both ends included. |
| LogParser.EnumeratesDistinct | timeflow/log_parser.py:106 | The dictionary iteration visits every day once and nothing else. |
| LogParser.KeptOrderFree | timeflow/log_parser.py:106-115 | Two listings of the same days without repeats give every table entry the same timelog count and the same seconds. |
| LogParser.TablesOrderFree | timeflow/log_parser.py:106-115 | Whatever order the dictionary yields the days in, each entry of the work and slack tables has the same value, and exists or not alike. |
| LogParser.AddDay | timeflow/log_parser.py:108-115 | The loop over a day's timelogs adds each one, in order, to its table and list. |
| LogParser.AggregateRange | timeflow/log_parser.py:106-115 | The loop over the days visits every key once. It returns the report of the timelogs of the days in range, in the order visited. |
| LogParser.CalculateReportAndGetTime | timeflow/log_parser.py:91-115 | A read error is passed on. Otherwise the tables and lists are the report of the in-range timelogs. The warning flag is that of `get_timelogs`. |
| Tables.Bump | timeflow/log_parser.py:111 | `d[project][log] += seconds` adds the project as a key of the outer dictionary. |
| Tables.SubtotalsBump | timeflow/log_parser.py:111 | Only the bumped project's subtotal changes. |
| Tables.BumpTotal | timeflow/log_parser.py:114 | The table's total grows by exactly the seconds added. |
| Text.Strip | timeflow/log_parser.py:64 | The result has no surrounding whitespace and is the input with whitespace-only ends removed. |
| Text.StripAppendSpace | timeflow/log_parser.py:64 | A trailing whitespace character, such as a line's '\n', does not change the stripped text. |
| Text.RStripStars | timeflow/log_parser.py:37 | The result is a prefix of the input and does not end in '*'. Every character removed is a '*'. |
| Text.FindFrom | timeflow/log_parser.py:14 | The index found is the first occurrence of the pattern; none is found only when the pattern does not occur. |
| Text.SplitWs | timeflow/log_parser.py:66 | `split(None, n)`, used here and as `split(None, 1)` at line 18, gives at most n + 1 parts; the shapes the log uses are stated by `SplitOnceSingle`, `SplitTwo` and `SplitThree`. |
| Text.SplitOnceSingle | timeflow/log_parser.py:18-19 | `split(None, 1)` has exactly one part exactly when the text is one token, possibly surrounded by whitespace. |
| Text.SplitTwo | timeflow/log_parser.py:66-71 | `split(None, 2)` of two tokens joined by a space is those two tokens. |
| Text.SplitThree | timeflow/log_parser.py:66-68 | `split(None, 2)` of "a b c" is a, b and the rest c verbatim, or a and b when c is empty. |
| Text.JoinSplitOn | timeflow/helpers.py:99 | Joining the parts of `split('-')` with '-' gives back the text. |
| Text.SplitOnJoin | timeflow/helpers.py:99 | `split('-')` of parts joined by '-', none containing '-', gives back the parts. |
| Text.ParseInt | timeflow/helpers.py:84-104 | Python 2's `int()` on a string. A success comes from a text that is not blank, and a negative result only from a leading '-'. Its values are stated by `IntToStringRoundTrip` and `ParseSignedSpaced`. |
| Text.IntToStringRoundTrip | timeflow/helpers.py:84-89 | `int(str(i)) == i` for every integer, negative ones included. |
| Text.ParseSignedSpaced | timeflow/helpers.py:84-93 | A sign, then any whitespace, then digits reads as the signed value of the digits, as Python 2's `int('- 5') == -5` does. |
| Calendar.DaysInMonth | timeflow/helpers.py:112 | A month has 28 to 31 days, and February has 29 exactly in a leap year. |
| Calendar.Midnight | timeflow/log_parser.py:73 | Truncating to midnight keeps the date. |
| Calendar.AddDays | timeflow/helpers.py:65 | Adding n days moves the day ordinal by n and keeps the time of day. |
| Calendar.DayNumberOrder | timeflow/log_parser.py:107 | Day ordinals compare as the dates do, and are equal exactly for the same date. |
| Calendar.MinuteNumberOrder | timeflow/log_parser.py:107 | Minute ordinals compare as the date-times do, and are equal exactly for the same date-time. |
| Calendar.WeekdayOfShift | timeflow/helpers.py:67 | Days a whole number of weeks apart have the same weekday. |
| Calendar.ParseDateTime | timeflow/log_parser.py:72 | A parsed date-time is valid and in the `datetime` year range. |
| Calendar.ParseDate | timeflow/helpers.py:74 | A parsed date is valid, in the `datetime` year range and at midnight. |
| Calendar.FormatDate | timeflow/helpers.py:58 | `strftime('%Y-%m-%d')` is ten characters. |
| Calendar.ParseFormatDate | timeflow/helpers.py:74 | Parsing a formatted date with `%Y-%m-%d` gives the midnight of that day. |
| Calendar.FormatParseDate | timeflow/helpers.py:74 | Formatting a parsed date gives back the text parsed. |
| Calendar.FormatDateTime | timeflow/helpers.py:34 | The text is 16 characters and starts with the `YYYY-MM-DD` date. |
| Calendar.ParseFormatDateTime | timeflow/log_parser.py:72 | Parsing a formatted date-time with `%Y-%m-%d %H:%M` gives it back. |
| Calendar.FormatParseDateTime | timeflow/log_parser.py:72 | Formatting a parsed date-time gives back the text parsed. |
| Helpers.FormatTimedelta | timeflow/helpers.py:138-141 | "{H}h {M}m" of the floored hours and minutes; stated by `SplitDuration` and `FormatTimedeltaSameMinute`. |
| Helpers.SplitDuration | timeflow/helpers.py:139-141 | The minutes lie in 0..59, and `3600 H + 60 M <= s < 3600 H + 60 M + 60`: floored, never rounded, negative durations included. |
| Helpers.FormatTimedeltaSameMinute | timeflow/helpers.py:138-141 | Two durations print alike exactly when they fall in the same whole minute. |
| Helpers.HoursMinutesText | timeflow/helpers.py:141 | The text "{H}h {M}m" determines both numbers. |
| Helpers.MondayOf | timeflow/helpers.py:76-77 | The result is a Monday at the same time of day, 0 to 6 days before the date. |
| Helpers.SundayAfter | timeflow/helpers.py:78 | Six days after a Monday is a Sunday at the same time of day. |
| Helpers.GetWeekRange | timeflow/helpers.py:73-80 | A date that does not parse is an error. Otherwise the result is the Monday and the Sunday, at midnight, of the week holding the date. |
| Helpers.WeekRangeSucceeds | timeflow/helpers.py:73-80 | Every valid date of years 1 to 9998 has its week computed without overflow. |
| Helpers.GetLastWeek | timeflow/helpers.py:64-70 | A success is the Monday and the Sunday of the week holding now minus 7 days, at now's time of day. |
| Helpers.LastWeekSucceeds | timeflow/helpers.py:64-70 | Every clock reading of years 1 to 9999 from 0001-01-08 on has its last week computed: on that day, now minus 7 days is 0001-01-01, a Monday. |
| Helpers.LastWeekBeforeThisWeek | timeflow/helpers.py:64-70 | Last week's Sunday is the day before this week's Monday. |
| Helpers.LastWeekMissesMonday | timeflow/helpers.py:64-70 | As written, unless the clock reads 00:00 (seconds are not modelled), last Monday's day key falls outside the range and last Sunday's falls inside it. |
| Helpers.LastWeekMissesMondayExample | timeflow/helpers.py:64-70 | On Wednesday 2024-05-15 10:30 the range starts on Monday 2024-05-06 at 10:30, and that Monday's day key, 2024-05-06 00:00, is left out. |
| Helpers.GetLastWeekFixed | timeflow/helpers.py:64-70 | Corrected: it succeeds exactly when `get_last_week` does, and gives a Monday-to-Sunday week at midnight around now minus 7 days. |
| Helpers.LastWeekFixedCoversWeek | timeflow/helpers.py:64-70 | With the corrected range, a day is reported exactly when it is one of the seven days before the Monday of now's week. |
| Helpers.ParseMonthArg | timeflow/helpers.py:83-106 | A success has a month in 1..12. An integer argument gives (current year, month) or the range error. Any other argument whose `split('-')` is not two parts is the unpacking error. |
| Helpers.YearMonthParts | timeflow/helpers.py:98-104 | "Y-M" whose two parts `int()` reads, zero-padded ones included, gives (Y, M), or the range error when M is not in 1..12. |
| Helpers.YearMonthPadded | timeflow/helpers.py:98-104 | A zero-padded month, as in "2015-09" for the `YYYY-MM` form the error message asks for, reads back as that year and month. |
| Helpers.YearMonthRoundTrip | timeflow/helpers.py:98-104 | "Y-M" built with `str()` of non-negative numbers reads back as (Y, M), or gives the range error when M is not in 1..12. |
| Helpers.YearMonthNotNumbers | timeflow/helpers.py:99-106 | Two parts that are not both integers give the "YYYY-MM" format error. |
| Helpers.WithYear | timeflow/helpers.py:110 | The argument is left unchanged exactly when no year, or the falsy year 0, is given. Otherwise it becomes a longer text. How that text reads back is stated by `MonthAfterYear`. |
| Helpers.MonthAfterYear | timeflow/helpers.py:110-111 | A month number put after the year before the current one reads as that month of that year, or gives the range error when the month is not in 1..12. |
| Helpers.MonthRangeAsked | timeflow/helpers.py:109-117 | A month number asked for comes back as that month. Its year is the one put in front, or the current year when no year or the year 0 is given. |
| Helpers.GetMonthRange | timeflow/helpers.py:109-117 | The month is the one `parse_month_arg` reads from the argument, with the year put in front when one is given; its errors are passed on. A year outside 1000..9999, which `strptime('%Y')` cannot read back, is the `YearOutOfRange` error. Otherwise the result is day 1 and the last day of that month, both at midnight. |
| Helpers.MonthRangeCovers | timeflow/helpers.py:109-117 | A day is in a month's range exactly when it is in that month. |
| Helpers.LeapFebruary | timeflow/helpers.py:112-115 | February of a leap year runs from the 1st to the 29th. |
| Helpers.GetLastMonth | timeflow/helpers.py:120-124 | As written: it fails in January; otherwise a success is the previous month of the same year. |
| Helpers.LastMonthWithinYear | timeflow/helpers.py:120-124 | From February to December, the previous month of the same year. |
| Helpers.LastMonthJanuary | timeflow/helpers.py:120-124 | As written, in January the month is 0 and the call fails with the range error. |
| Helpers.GetLastMonthFixed | timeflow/helpers.py:120-124 | Corrected: a success is the previous calendar month, December of the year before in January. |
| Helpers.LastMonthFixedPrevious | timeflow/helpers.py:120-124 | Corrected: always the previous calendar month, which is December of the year before in January. |
| Helpers.Section | timeflow/helpers.py:148-149 | A project is kept exactly when it is in the input and of the section's kind. There are no more of them than the input has. |
| Helpers.SectionsPartition | timeflow/helpers.py:148-149 | The work and the slack projects together are all the projects, each exactly once. |
| Helpers.TotalTimeLeftFold | timeflow/helpers.py:150-151 | The total adds from the left, as `sum(..., timedelta())` does: the total of all but the last project, plus the last. |
| Helpers.TotalTimeAppend | timeflow/helpers.py:150-151 | The total of two runs of projects put together is the sum of their totals. |
| Helpers.SectionsTotal | timeflow/helpers.py:150-151 | The work and the slack totals add up to the total of all projects. |
| Helpers.SortByTime | timeflow/helpers.py:148-149 | Sorting is a permutation of its input. |
| Helpers.SortDescending | timeflow/helpers.py:148-149 | After sorting, each project is at least as long as the next. |
| Helpers.SortStable | timeflow/helpers.py:148-149 | Projects with the same total keep their input order. |
| Helpers.SortTotal | timeflow/helpers.py:150-151 | Sorting keeps the total. |
| Helpers.Banner | timeflow/helpers.py:160-163 | " TITLE {H}h {M}m " centred in 80 columns of '-'; stated by `CenterFill`. |
| Helpers.CenterFill | timeflow/helpers.py:160 | Centring in a field of the given width (80 for the banners) puts the title in the middle with the fill character ('-') around it. The left pad is half the padding rounded down. A title at least as wide as the field is left alone. |
| Helpers.MakeColorizer | timeflow/helpers.py:168-170 | With colour off, the colorizer returns its text unchanged. |
| Helpers.PrintReport | timeflow/helpers.py:144-165 | The report lines; stated by `ReportShape`, `ReportLayout`, `ReportWorkLines`, `ReportSlackLines`, `ReportSectionsDescending` and `ReportListsEachProjectOnce`. |
| Helpers.ReportShape | timeflow/helpers.py:144-165 | Without colour, the report is the header, then the work banner with the work total and the work projects sorted. Then come the slack banner and the slack projects sorted. |
| Helpers.ReportDates | timeflow/helpers.py:157-158 | One date when the two are equal. Otherwise the first date, " to ", then the last date. |
| Helpers.ReportLayout | timeflow/helpers.py:157-165 | The report has as many lines as projects, plus three. The header, the two banners and the two sections sit at fixed places. |
| Helpers.ReportWorkLines | timeflow/helpers.py:161-162 | Every line of the work section reports a work project with the work total. |
| Helpers.ReportSlackLines | timeflow/helpers.py:164-165 | Every line of the slack section reports a slack project with the slack total. |
| Helpers.ReportSectionsDescending | timeflow/helpers.py:148-149 | Within each section the projects are listed longest first. |
| Helpers.ReportListsEachProjectOnce | timeflow/helpers.py:148-165 | The report lists every project exactly once. |
| Helpers.PrintStats | timeflow/helpers.py:127-135 | The two summary lines; stated by `StatsMatchReport`. |
| Helpers.StatsMatchReport | timeflow/helpers.py:127-132 | The summary's two totals are the totals the report's banners show. |
| Helpers.FormLogMessage | timeflow/helpers.py:33-39 | The text appended for a message; stated by `FormLogMessageReadsBack`. |
| Helpers.FormLogMessageReadsBack | timeflow/helpers.py:33-39 | The text appended is an optional blank line, then "<timestamp> <message>\n". The blank line is skipped on reading, and the record line reads back as exactly `now` and the message. |
| Helpers.RecordLine | timeflow/helpers.py:34-35 | The written record has its only newline at the end and parses as the record. |
| Helpers.IsAnotherDay | timeflow/helpers.py:42-61 | A separator is needed only when the file can be read and has a last line. It is needed exactly when that line does not start with today's date, as `SeparatorOnNewDay` states. |
| Helpers.FormatDateSameDay | timeflow/helpers.py:55-58 | Two timestamps print the same `YYYY-MM-DD` exactly when they are on the same day. |
| Helpers.SeparatorOnNewDay | timeflow/helpers.py:42-61 | After a line written at time w, a new message gets a blank line before it exactly when now is on another day than w. |

## Left out

- File I/O: opening the log in `parse_lines_new` and `is_another_day`, and `write_to_log_file` with `os.makedirs`. The file is a sequence of lines, or `None` when it cannot be opened.
- The clock: every `dt.now()` is a parameter.
  - The parameter has minutes and no seconds or microseconds. At 00:00:ss with ss above zero, Python's `get_last_week` range already leaves last Monday's key out; the model keeps it, so `LastWeekMissesMonday` is stated for clock readings other than 00:00.
  - `form_log_message` reads the clock twice: once for the timestamp and once inside `is_another_day`. `FormLogMessage` takes one `now` for both, so the case where midnight passes between the two readings is not modelled.
  - Helpers.GetLastMonth: `get_last_month` reads the clock twice as well. It reads the month at timeflow/helpers.py:121, and `parse_month_arg` reads the year again at timeflow/helpers.py:96, reached through `get_month_range(month)`. `GetLastMonth` takes one `now` for both. So a call that crosses midnight on 31 December, which Python answers with November of the new year, is not modelled.
- `today_work_time` in `calculate_report_and_get_time`: it depends on the live clock.
- `calc_time_diff`: dead code that nothing calls.
- `timeflow/arg_parser.py` is not part of this model: command-line wiring, launching the editor, and dispatching to the selectors.
- The enabled branch of `_make_colorizer`, which calls `termcolor.colored`: `colored` is a parameter.
- `strftime('%a %d %b %Y')` in the report header: it is a parameter.
- `logger.warn`: a returned flag says whether the warning was logged.
- `print`: `print_stats` and `print_report` return their lines instead of printing them.
- The `Project` class and `project_report` are not part of this model.
  - A project is a record of its name, its kind and its total seconds.
  - Each project's report line is a placeholder carrying the project and its section total.
  - The per-log detail lines, percentages and hashtag colouring are not modelled.
- `total_seconds()` returns a float. At minute granularity it is integral, so durations are integer seconds.
- Calendar.FormatDate and Calendar.FormatDateTime: Python 2's `strftime` raises `ValueError` for years before 1900. So `form_log_message` and `is_another_day` fail for a clock reading before 1900. The model formats every year from 1 to 9999.
- `strptime` accepts unpadded fields. The model parses the fixed-width `%Y-%m-%d %H:%M` form only, with a calendar validity check.
- Python 2 `str` is bytes. Strings here are sequences of characters, and whitespace is the C `isspace` set.
- Date arithmetic runs on an unbounded proleptic calendar. The selectors report `DateOverflow` where Python's `datetime` would raise `OverflowError`.
- Text.SplitWs: only the shapes the log uses are proved. These are one token against several, and a date, a time and a rest. `split(None, n)` is not characterised in general.
- Helpers.GetLastMonth: its exact results are stated by `LastMonthWithinYear` and `LastMonthJanuary`. `LastMonthWithinYear` covers years 1000 to 9999, the years `strptime('%Y')` reads back. Other years fail with `YearOutOfRange`, which no lemma states.
- Helpers.LastMonthFixedPrevious: stated for years 1001 to 9999, so that December of the year before is still a four-digit year.
- Helpers.Section: states which projects are kept and how many at most. That the kept projects keep their input order is not stated.
- LogParser.AggregateRange and LogParser.CalculateReportAndGetTime: the day order is a ghost output, and the result is stated for whichever order the dictionary yields. The tables do not depend on it (`TablesOrderFree`); the order of the two lists does.

## Findings

| source | as written | input that shows it | evidently intended | confidence | as-written member | corrected member |
|---|---|---|---|---|---|---|
| timeflow/helpers.py:64-70 | `get_last_week` keeps the clock's time of day in both ends of the range. The report compares that range with day keys at midnight, so last Monday is excluded whenever the clock is not at midnight. Last Sunday is still included. | now = Wednesday 2024-05-15 10:30: the range starts at 2024-05-06 10:30, so the key 2024-05-06 00:00 is outside it | last week's Monday to Sunday, both at midnight, covering all seven days | not executed | Helpers.LastWeekMissesMondayExample | Helpers.LastWeekFixedCoversWeek |
| timeflow/helpers.py:120-124 | `get_last_month` subtracts 1 from the month and tests `month == 12`, which can never hold. In January it asks for month 0 and exits with "Month must be in range from 1 to 12". | now in January, e.g. 2025-01-15 | December of the previous year | not executed | Helpers.LastMonthJanuary | Helpers.LastMonthFixedPrevious |

=== FILE: calendar.dfy ===
/**
 * Minute-granular timestamps (the `datetime` values the log parser builds with
 * `strptime('%Y-%m-%d %H:%M')`), the proleptic Gregorian calendar behind
 * `calendar.monthrange`, `timedelta(days=n)` arithmetic, `isocalendar()`
 * weekdays, and the fixed-width text forms `%Y-%m-%d` and `%Y-%m-%d %H:%M`.
 */
module Calendar {
  import opened Wrappers
  import opened Text

  /** A timestamp to the minute; seconds never occur in the log. */
  datatype DateTime = DateTime(year: int, month: int, day: int, hour: int, minute: int)

  predicate IsLeapYear(y: int) {
    y % 4 == 0 && (y % 100 != 0 || y % 400 == 0)
  }

  /** `calendar.monthrange(y, m)[1]`: the number of days of month `m` of year `y`. */
  function DaysInMonth(y: int, m: int): (n: int)
    requires 1 <= m <= 12
    ensures 28 <= n <= 31
    ensures m == 2 ==> (n == 29 <==> IsLeapYear(y))
  {
    if m == 2 then (if IsLeapYear(y) then 29 else 28)
    else if m == 4 || m == 6 || m == 9 || m == 11 then 30
    else 31
  }

  predicate ValidDate(y: int, m: int, d: int) {
    1 <= m <= 12 && 1 <= d <= DaysInMonth(y, m)
  }

  /** A calendar date and a time of day that exist. */
  predicate Valid(t: DateTime) {
    ValidDate(t.year, t.month, t.day) && 0 <= t.hour < 24 && 0 <= t.minute < 60
  }

  predicate IsMidnight(t: DateTime) {
    t.hour == 0 && t.minute == 0
  }

  /** `t.replace(hour=0, minute=0, second=0, microsecond=0)` */
  function Midnight(t: DateTime): (r: DateTime)
    ensures IsMidnight(r) && r.year == t.year && r.month == t.month && r.day == t.day
  {
    t.(hour := 0, minute := 0)
  }

  /** Midnight of a day is on the same day. */
  lemma MidnightSameDay(t: DateTime)
    ensures DayNumber(Midnight(t)) == DayNumber(t) && IsoWeekday(Midnight(t)) == IsoWeekday(t)
    ensures Valid(t) ==> Valid(Midnight(t))
  {
  }

  function YearLength(y: int): int {
    if IsLeapYear(y) then 366 else 365
  }

  /** Days from 0001-01-01 to the first of January of year `y`. */
  function DaysBeforeYear(y: int): int {
    365 * (y - 1) + (y - 1) / 4 - (y - 1) / 100 + (y - 1) / 400
  }

  /** Days of year `y` before the first of month `m`. */
  function DaysBeforeMonth(y: int, m: int): int {
    (if IsLeapYear(y) && m > 2 then 1 else 0) +
    (match m
     case 1 => 0   case 2 => 31  case 3 => 59  case 4 => 90
     case 5 => 120 case 6 => 151 case 7 => 181 case 8 => 212
     case 9 => 243 case 10 => 273 case 11 => 304 case _ => 334)
  }

  /** Python's `toordinal()`: 0001-01-01 is day 1. */
  function DayNumber(t: DateTime): int {
    DaysBeforeYear(t.year) + DaysBeforeMonth(t.year, t.month) + t.day
  }

  /** Minutes since 0001-01-01 00:00; differences of these are `timedelta`s. */
  function MinuteNumber(t: DateTime): int {
    DayNumber(t) * 1440 + t.hour * 60 + t.minute
  }

  /** `(end - start).total_seconds()` for minute-granular timestamps. */
  function SecondsBetween(start: DateTime, end: DateTime): int {
    60 * (MinuteNumber(end) - MinuteNumber(start))
  }

  /** Python's ordering of `datetime`s: field by field, most significant first. */
  predicate LexBefore(a: DateTime, b: DateTime) {
    if a.year != b.year then a.year < b.year
    else if a.month != b.month then a.month < b.month
    else if a.day != b.day then a.day < b.day
    else if a.hour != b.hour then a.hour < b.hour
    else a.minute < b.minute
  }

  lemma QuotientStep(y: int, k: int)
    requires k == 4 || k == 100 || k == 400
    ensures y / k - (y - 1) / k == if y % k == 0 then 1 else 0
  {
    var q, r := (y - 1) / k, (y - 1) % k;
    assert y == k * q + r + 1;
    if r + 1 == k {
      assert y == k * (q + 1);
    } else {
      assert y == k * q + (r + 1) && 0 <= r + 1 < k;
    }
  }

  lemma Divides(y: int)
    ensures y % 400 == 0 ==> y % 100 == 0
    ensures y % 100 == 0 ==> y % 4 == 0
  {
    if y % 400 == 0 {
      var q, d, m := y / 400, y / 100, y % 100;
      assert y == 400 * q && y == 100 * d + m && 0 <= m < 100;
      assert m == 100 * (4 * q - d);
    }
    if y % 100 == 0 {
      var q, d, m := y / 100, y / 4, y % 4;
      assert y == 100 * q && y == 4 * d + m && 0 <= m < 4;
      assert m == 4 * (25 * q - d);
    }
  }

  /** A year holds as many days as the Gregorian rule says. */
  lemma YearStep(y: int)
    ensures DaysBeforeYear(y + 1) == DaysBeforeYear(y) + YearLength(y)
  {
    QuotientStep(y, 4);
    QuotientStep(y, 100);
    QuotientStep(y, 400);
    Divides(y);
    var a, b, c := y / 4 - (y - 1) / 4, y / 100 - (y - 1) / 100, y / 400 - (y - 1) / 400;
    assert DaysBeforeYear(y + 1) - DaysBeforeYear(y) == 365 + a - b + c;
  }

  /** Every earlier year starts at least a full year of days earlier. */
  lemma {:induction false} YearsApart(y1: int, y2: int)
    requires y1 < y2
    ensures DaysBeforeYear(y2) >= DaysBeforeYear(y1) + YearLength(y1)
    decreases y2 - y1
  {
    YearStep(y1);
    if y1 + 1 < y2 {
      YearsApart(y1 + 1, y2);
    }
  }

  /** A date's ordinal lies within the ordinals of its year. */
  lemma DayNumberInYear(t: DateTime)
    requires ValidDate(t.year, t.month, t.day)
    ensures DaysBeforeYear(t.year) < DayNumber(t) <= DaysBeforeYear(t.year) + YearLength(t.year)
  {
    MonthStep(t.year, 12);
    if t.month < 12 {
      DaysBeforeMonthOrder(t.year, t.month, 12);
    }
  }

  /** A date falls before year `y` exactly when its ordinal is at most the days before `y`. */
  lemma YearBoundary(t: DateTime, y: int)
    requires ValidDate(t.year, t.month, t.day)
    ensures t.year < y <==> DayNumber(t) <= DaysBeforeYear(y)
  {
    DayNumberInYear(t);
    if t.year < y {
      YearStep(t.year);
      if t.year + 1 < y {
        YearsApart(t.year + 1, y);
      }
    } else if t.year > y {
      YearsApart(y, t.year);
    }
  }

  /** Python's ordering of dates, ignoring the time of day. */
  predicate DateBefore(a: DateTime, b: DateTime) {
    if a.year != b.year then a.year < b.year
    else if a.month != b.month then a.month < b.month
    else a.day < b.day
  }

  lemma DaysBeforeMonthOrder(y: int, m1: int, m2: int)
    requires 1 <= m1 < m2 <= 12
    ensures DaysBeforeMonth(y, m1) + DaysInMonth(y, m1) <= DaysBeforeMonth(y, m2)
  {
  }

  /** The day ordinal orders dates as Python compares them. */
  lemma DayNumberOrder(a: DateTime, b: DateTime)
    requires ValidDate(a.year, a.month, a.day) && ValidDate(b.year, b.month, b.day)
    ensures DayNumber(a) < DayNumber(b) <==> DateBefore(a, b)
    ensures DayNumber(a) == DayNumber(b) <==> (a.year == b.year && a.month == b.month && a.day == b.day)
  {
    if a.year < b.year {
      YearsApart(a.year, b.year);
      MonthStep(a.year, 12);
      if a.month < 12 {
        DaysBeforeMonthOrder(a.year, a.month, 12);
      }
    } else if b.year < a.year {
      YearsApart(b.year, a.year);
      MonthStep(b.year, 12);
      if b.month < 12 {
        DaysBeforeMonthOrder(b.year, b.month, 12);
      }
    } else if a.month < b.month {
      DaysBeforeMonthOrder(a.year, a.month, b.month);
    } else if b.month < a.month {
      DaysBeforeMonthOrder(a.year, b.month, a.month);
    }
  }

  /** The minute ordinal orders timestamps exactly as Python compares them. */
  lemma MinuteNumberOrder(a: DateTime, b: DateTime)
    requires Valid(a) && Valid(b)
    ensures MinuteNumber(a) < MinuteNumber(b) <==> LexBefore(a, b)
    ensures MinuteNumber(a) == MinuteNumber(b) <==> a == b
  {
    DayNumberOrder(a, b);
  }

  /** Consecutive months follow each other, and December closes the year. */
  lemma MonthStep(y: int, m: int)
    requires 1 <= m <= 12
    ensures m < 12 ==> DaysBeforeMonth(y, m + 1) == DaysBeforeMonth(y, m) + DaysInMonth(y, m)
    ensures m == 12 ==> DaysBeforeMonth(y, m) + DaysInMonth(y, m) == YearLength(y)
  {
  }

  /** The calendar day after `t`, at the same time of day. */
  function NextDay(t: DateTime): (r: DateTime)
    requires Valid(t)
    ensures Valid(r) && DayNumber(r) == DayNumber(t) + 1
    ensures r.hour == t.hour && r.minute == t.minute
  {
    if t.day < DaysInMonth(t.year, t.month) then t.(day := t.day + 1)
    else if t.month < 12 then
      MonthStep(t.year, t.month);
      t.(month := t.month + 1, day := 1)
    else
      YearStep(t.year);
      MonthStep(t.year, 12);
      t.(year := t.year + 1, month := 1, day := 1)
  }

  /** The calendar day before `t`, at the same time of day. */
  function PrevDay(t: DateTime): (r: DateTime)
    requires Valid(t)
    ensures Valid(r) && DayNumber(r) == DayNumber(t) - 1
    ensures r.hour == t.hour && r.minute == t.minute
  {
    if t.day > 1 then t.(day := t.day - 1)
    else if t.month > 1 then
      MonthStep(t.year, t.month - 1);
      t.(month := t.month - 1, day := DaysInMonth(t.year, t.month - 1))
    else
      YearStep(t.year - 1);
      MonthStep(t.year - 1, 12);
      t.(year := t.year - 1, month := 12, day := 31)
  }

  /** `t + timedelta(days=n)` */
  function AddDays(t: DateTime, n: int): (r: DateTime)
    requires Valid(t)
    ensures Valid(r) && DayNumber(r) == DayNumber(t) + n
    ensures r.hour == t.hour && r.minute == t.minute
    decreases if n < 0 then -n else n
  {
    if n == 0 then t
    else if n > 0 then AddDays(NextDay(t), n - 1)
    else AddDays(PrevDay(t), n + 1)
  }

  /** The ISO weekday of a day ordinal: day 1, 0001-01-01, was a Monday (1); Sunday is 7. */
  function WeekdayOf(n: int): (w: int)
    ensures 1 <= w <= 7
    ensures (n - w) % 7 == 0
  {
    var r := n % 7;
    if r == 0 then 7 else r
  }

  /** `t.isocalendar()[2]` */
  function IsoWeekday(t: DateTime): (w: int)
    ensures 1 <= w <= 7
  {
    WeekdayOf(DayNumber(t))
  }

  /** Days a whole number of weeks apart share their weekday. */
  lemma WeekdayOfShift(n: int, k: int)
    ensures WeekdayOf(n + 7 * k) == WeekdayOf(n)
  {
    assert (n + 7 * k) % 7 == n % 7;
  }

  /** Going back `w - 1` days from weekday `w` reaches the Monday, and six more days on the Sunday. */
  lemma WeekdayOfWeek(n: int)
    ensures WeekdayOf(n - WeekdayOf(n) + 1) == 1
    ensures WeekdayOf(n - WeekdayOf(n) + 7) == 7
  {
    var w := WeekdayOf(n);
    var q := (n - w) / 7;
    assert n - w == 7 * q;
    assert (1 + 7 * q) % 7 == 1;
    assert (7 + 7 * q) % 7 == 0;
  }

  // Fixed-width text forms

  function Pad2(n: int): (s: string)
    requires 0 <= n < 100
    ensures |s| == 2 && AllDigits(s)
  {
    [DigitChar(n / 10), DigitChar(n % 10)]
  }

  function Pad4(n: int): (s: string)
    requires 0 <= n < 10000
    ensures |s| == 4 && AllDigits(s)
  {
    Pad2(n / 100) + Pad2(n % 100)
  }

  function Num2(s: string, i: nat): (n: nat)
    requires i + 2 <= |s| && IsDigit(s[i]) && IsDigit(s[i + 1])
    ensures n < 100
  {
    10 * DigitValue(s[i]) + DigitValue(s[i + 1])
  }

  function Num4(s: string, i: nat): (n: nat)
    requires i + 4 <= |s| && IsDigit(s[i]) && IsDigit(s[i + 1]) && IsDigit(s[i + 2]) && IsDigit(s[i + 3])
    ensures n < 10000
  {
    100 * Num2(s, i) + Num2(s, i + 2)
  }

  /**
   * The years `datetime` accepts, 1 to 9999, which `'%Y'` reads as four
   * digits. Python 2's `strftime` refuses the years before 1900; the model
   * formats every year of this range.
   */
  predicate InDatetimeRange(t: DateTime) {
    1 <= t.year <= 9999
  }

  /** `t.strftime('%Y-%m-%d')` */
  function FormatDate(t: DateTime): (s: string)
    requires Valid(t) && InDatetimeRange(t)
    ensures |s| == 10
  {
    Pad4(t.year) + "-" + Pad2(t.month) + "-" + Pad2(t.day)
  }

  /** `t.strftime('%Y-%m-%d %H:%M')` */
  function FormatDateTime(t: DateTime): (s: string)
    requires Valid(t) && InDatetimeRange(t)
    ensures |s| == 16 && s[..10] == FormatDate(t)
  {
    FormatDate(t) + " " + Pad2(t.hour) + ":" + Pad2(t.minute)
  }

  /** The shape `DDDD-DD-DD`, digits and dashes in place. */
  predicate DateShape(s: string) {
    |s| >= 10 &&
    IsDigit(s[0]) && IsDigit(s[1]) && IsDigit(s[2]) && IsDigit(s[3]) && s[4] == '-' &&
    IsDigit(s[5]) && IsDigit(s[6]) && s[7] == '-' && IsDigit(s[8]) && IsDigit(s[9])
  }

  /** The shape `DDDD-DD-DD DD:DD`. */
  predicate DateTimeShape(s: string) {
    |s| == 16 && DateShape(s) && s[10] == ' ' &&
    IsDigit(s[11]) && IsDigit(s[12]) && s[13] == ':' && IsDigit(s[14]) && IsDigit(s[15])
  }

  /**
   * `datetime.strptime(s, '%Y-%m-%d %H:%M')`, read strictly: four-digit year,
   * two-digit fields, and a date and time that exist.
   */
  function ParseDateTime(s: string): (r: Option<DateTime>)
    ensures r.Some? ==> Valid(r.value) && InDatetimeRange(r.value)
  {
    if !DateTimeShape(s) then None
    else
      var t := DateTime(Num4(s, 0), Num2(s, 5), Num2(s, 8), Num2(s, 11), Num2(s, 14));
      if Valid(t) && InDatetimeRange(t) then Some(t) else None
  }

  /** `datetime.strptime(s, '%Y-%m-%d')`: a date at midnight. */
  function ParseDate(s: string): (r: Option<DateTime>)
    ensures r.Some? ==> Valid(r.value) && InDatetimeRange(r.value) && IsMidnight(r.value)
  {
    if !(|s| == 10 && DateShape(s)) then None
    else
      var t := DateTime(Num4(s, 0), Num2(s, 5), Num2(s, 8), 0, 0);
      if Valid(t) && InDatetimeRange(t) then Some(t) else None
  }

  lemma Pad2Value(n: int)
    requires 0 <= n < 100
    ensures Num2(Pad2(n), 0) == n
  {
  }

  lemma Pad4Value(n: int)
    requires 0 <= n < 10000
    ensures Num4(Pad4(n), 0) == n
  {
    var s := Pad4(n);
    Pad2Value(n / 100);
    Pad2Value(n % 100);
    assert s[..2] == Pad2(n / 100) && s[2..] == Pad2(n % 100);
    assert Num2(s, 0) == Num2(Pad2(n / 100), 0);
    assert Num2(s, 2) == Num2(Pad2(n % 100), 0);
  }

  lemma Num2Pad(s: string, i: nat)
    requires i + 2 <= |s| && IsDigit(s[i]) && IsDigit(s[i + 1])
    ensures Pad2(Num2(s, i)) == s[i..i + 2]
  {
    var n := Num2(s, i);
    assert n / 10 == DigitValue(s[i]) && n % 10 == DigitValue(s[i + 1]);
  }

  lemma Num4Pad(s: string, i: nat)
    requires i + 4 <= |s| && IsDigit(s[i]) && IsDigit(s[i + 1]) && IsDigit(s[i + 2]) && IsDigit(s[i + 3])
    ensures Pad4(Num4(s, i)) == s[i..i + 4]
  {
    var n := Num4(s, i);
    var hi, lo := Num2(s, i), Num2(s, i + 2);
    assert n / 100 == hi && n % 100 == lo;
    Num2Pad(s, i);
    Num2Pad(s, i + 2);
  }

  /** Writing a timestamp and reading it back gives the same timestamp. */
  lemma ParseFormatDateTime(t: DateTime)
    requires Valid(t) && InDatetimeRange(t)
    ensures ParseDateTime(FormatDateTime(t)) == Some(t)
  {
    var s := FormatDateTime(t);
    Pad4Value(t.year);
    Pad2Value(t.month);
    Pad2Value(t.day);
    Pad2Value(t.hour);
    Pad2Value(t.minute);
    assert s[0..4] == Pad4(t.year);
    assert s[5..7] == Pad2(t.month);
    assert s[8..10] == Pad2(t.day);
    assert s[11..13] == Pad2(t.hour);
    assert s[14..16] == Pad2(t.minute);
  }

  /** `strptime(strftime(t, '%Y-%m-%d'), '%Y-%m-%d')` is the midnight of `t`'s day. */
  lemma ParseFormatDate(t: DateTime)
    requires Valid(t) && InDatetimeRange(t)
    ensures ParseDate(FormatDate(t)) == Some(Midnight(t))
  {
    var s := FormatDate(t);
    Pad4Value(t.year);
    Pad2Value(t.month);
    Pad2Value(t.day);
    assert s[0..4] == Pad4(t.year);
    assert s[5..7] == Pad2(t.month);
    assert s[8..10] == Pad2(t.day);
  }

  /** The date parser accepts only the canonical text of the date it returns. */
  lemma FormatParseDate(s: string)
    requires ParseDate(s).Some?
    ensures FormatDate(ParseDate(s).value) == s
  {
    Num4Pad(s, 0);
    Num2Pad(s, 5);
    Num2Pad(s, 8);
    assert s == s[0..4] + "-" + s[5..7] + "-" + s[8..10];
  }

  /** The strict parser accepts only the canonical text of the timestamp it returns. */
  lemma FormatParseDateTime(s: string)
    requires ParseDateTime(s).Some?
    ensures FormatDateTime(ParseDateTime(s).value) == s
  {
    var t := ParseDateTime(s).value;
    Num4Pad(s, 0);
    Num2Pad(s, 5);
    Num2Pad(s, 8);
    Num2Pad(s, 11);
    Num2Pad(s, 14);
    assert s == s[0..4] + "-" + s[5..7] + "-" + s[8..10] + " " + s[11..13] + ":" + s[14..16];
  }
}

=== FILE: helpers.dfy ===
/**
 * The helpers of timeflow: duration text, week and month ranges for the
 * report selectors, the lines of the summary and of the report, and the text
 * appended to the log for a new message.
 *
 * The clock (`dt.now()`) is a parameter; so are the contents of the log file
 * and the foreign formatters (`termcolor.colored`, `strftime('%a %d %b %Y')`).
 */
module Helpers {
  import opened Wrappers
  import opened Text
  import opened Calendar
  import opened LogParser

  /** How a helper gives up: `sys.exit(message)`, or an exception it lets escape. */
  datatype HelperError =
    | Exit(message: string)
    | UnpackError(parts: nat)
    | BadDate(text: string)
    | YearOutOfRange(year: int)
    | DateOverflow

  const MonthRangeMessage := "Month must be in range from 1 to 12"
  const YearMonthMessage := "Argument in form of YYYY-MM is expected, e.g. 2015-9"

  // ---------------------------------------------------------------------------
  // Durations

  /** Whole hours and the whole minutes left over, both floored. */
  function SplitDuration(seconds: int): (r: (int, int))
    ensures 0 <= r.1 < 60
    ensures 3600 * r.0 + 60 * r.1 <= seconds < 3600 * r.0 + 60 * r.1 + 60
  {
    (seconds / 3600, seconds % 3600 / 60)
  }

  /** `format_timedelta`: "{H}h {M}m". */
  function FormatTimedelta(seconds: int): (s: string) {
    var (h, m) := SplitDuration(seconds);
    IntToString(h) + "h " + IntToString(m) + "m"
  }

  /** Two durations print alike exactly when they fall in the same minute. */
  lemma FormatTimedeltaSameMinute(a: int, b: int)
    ensures FormatTimedelta(a) == FormatTimedelta(b) <==> a / 60 == b / 60
  {
    var (ha, ma) := SplitDuration(a);
    var (hb, mb) := SplitDuration(b);
    WholeMinutes(a);
    WholeMinutes(b);
    if FormatTimedelta(a) == FormatTimedelta(b) {
      HoursMinutesText(ha, ma, hb, mb);
    }
    if a / 60 == b / 60 {
      SameHoursMinutes(ha, ma, hb, mb);
    }
  }

  /** The hours and minutes of a duration spell out its whole minutes. */
  lemma WholeMinutes(seconds: int)
    ensures seconds / 60 == 60 * SplitDuration(seconds).0 + SplitDuration(seconds).1
  {
    var (h, m) := SplitDuration(seconds);
    var q := 60 * h + m;
    assert 60 * q <= seconds < 60 * q + 60;
    var r := seconds - 60 * q;
    assert seconds == 60 * q + r && 0 <= r < 60;
  }

  /** A count of minutes has one reading as hours and minutes under 60. */
  lemma SameHoursMinutes(ha: int, ma: int, hb: int, mb: int)
    requires 0 <= ma < 60 && 0 <= mb < 60 && 60 * ha + ma == 60 * hb + mb
    ensures ha == hb && ma == mb
  {
  }

  /** The text determines both numbers. */
  lemma HoursMinutesText(ha: int, ma: int, hb: int, mb: int)
    requires 0 <= ma && 0 <= mb
    requires IntToString(ha) + "h " + IntToString(ma) + "m" == IntToString(hb) + "h " + IntToString(mb) + "m"
    ensures ha == hb && ma == mb
  {
    var sa, sb := IntToString(ha), IntToString(hb);
    var ta, tb := IntToString(ma), IntToString(mb);
    var whole := sa + "h " + ta + "m";
    assert whole == sa + ("h " + ta + "m");
    assert whole == sb + ("h " + tb + "m");
    IntToStringNoLetter(ha);
    IntToStringNoLetter(hb);
    FirstLetter(sa, "h " + ta + "m", sb, "h " + tb + "m");
    MinutesPart(ta, tb);
    IntToStringInjective(ha, hb);
    IntToStringInjective(ma, mb);
  }

  /** The minutes text sits between "h " and "m". */
  lemma MinutesPart(ta: string, tb: string)
    requires "h " + ta + "m" == "h " + tb + "m"
    ensures ta == tb
  {
    assert ta == ("h " + ta + "m")[2..|ta| + 2];
    assert tb == ("h " + tb + "m")[2..|tb| + 2];
  }

  /** `str` tells integers apart. */
  lemma IntToStringInjective(x: int, y: int)
    requires IntToString(x) == IntToString(y)
    ensures x == y
  {
    IntToStringRoundTrip(x);
    IntToStringRoundTrip(y);
  }

  /** `str(i)` is a sign and digits: no 'h'. */
  lemma IntToStringNoLetter(i: int)
    ensures 'h' !in IntToString(i)
  {
    var n := if i < 0 then -i else i;
    var d := NatToString(n);
    assert forall k :: 0 <= k < |d| ==> IsDigit(d[k]);
  }

  /** Splitting at the first 'h' is unambiguous. */
  lemma FirstLetter(a: string, x: string, b: string, y: string)
    requires 'h' !in a && 'h' !in b
    requires x != [] && x[0] == 'h' && y != [] && y[0] == 'h'
    requires a + x == b + y
    ensures a == b && x == y
  {
    if |a| < |b| {
      LetterInLonger(a, x, b, y);
      assert false;
    } else if |b| < |a| {
      LetterInLonger(b, y, a, x);
      assert false;
    } else {
      assert a == (a + x)[..|a|];
      assert b == (b + y)[..|b|];
      assert x == (a + x)[|a|..];
      assert y == (b + y)[|b|..];
    }
  }

  /** Where the shorter prefix ends, the longer one holds the first letter of the rest. */
  lemma LetterInLonger(a: string, x: string, b: string, y: string)
    requires a + x == b + y && |a| < |b| && x != []
    ensures x[0] in b
  {
    assert b[|a|] == (b + y)[|a|] == (a + x)[|a|] == x[0];
  }

  // ---------------------------------------------------------------------------
  // Weeks

  /** `date - timedelta(days=isocalendar()[2] - 1)`: the Monday of the week of `d`. */
  function MondayOf(d: DateTime): (r: DateTime)
    requires Valid(d)
    ensures Valid(r) && IsoWeekday(r) == 1 && r.hour == d.hour && r.minute == d.minute
    ensures DayNumber(r) <= DayNumber(d) < DayNumber(r) + 7
  {
    WeekdayOfWeek(DayNumber(d));
    AddDays(d, -(IsoWeekday(d) - 1))
  }

  /** `get_week_range`: the Monday and the Sunday of the week of a `YYYY-MM-DD` date. */
  function GetWeekRange(date: string): (r: Result<(DateTime, DateTime), HelperError>)
    ensures ParseDate(date).None? ==> r == Failure(BadDate(date))
    ensures r.Success? ==>
      ParseDate(date).Some? && IsWeek(r.value.0, r.value.1) &&
      IsMidnight(r.value.0) && IsMidnight(r.value.1) &&
      DayNumber(r.value.0) <= DayNumber(ParseDate(date).value) <= DayNumber(r.value.1)
  {
    match ParseDate(date)
    case None => Failure(BadDate(date))
    case Some(d) =>
      var monday := MondayOf(d);
      if !InDatetimeRange(monday) then Failure(DateOverflow)
      else
        var sunday := SundayAfter(monday);
        if !InDatetimeRange(sunday) then Failure(DateOverflow)
        else Success((monday, sunday))
  }

  /** `monday + timedelta(days=6)` */
  function SundayAfter(monday: DateTime): (r: DateTime)
    requires Valid(monday) && IsoWeekday(monday) == 1
    ensures Valid(r) && IsoWeekday(r) == 7 && DayNumber(r) == DayNumber(monday) + 6
    ensures r.hour == monday.hour && r.minute == monday.minute
  {
    var r := AddDays(monday, 6);
    SundayOfMonday(DayNumber(monday), DayNumber(r));
    r
  }

  /** Six days after a Monday is a Sunday. */
  lemma SundayOfMonday(d: int, e: int)
    requires WeekdayOf(d) == 1 && e == d + 6
    ensures WeekdayOf(e) == 7
  {
    WeekdayOfWeek(d);
  }

  /** A Monday and the Sunday six days after it, at the same time of day. */
  predicate IsWeek(monday: DateTime, sunday: DateTime) {
    Valid(monday) && Valid(sunday) && InDatetimeRange(monday) && InDatetimeRange(sunday) &&
    IsoWeekday(monday) == 1 && IsoWeekday(sunday) == 7 &&
    DayNumber(sunday) == DayNumber(monday) + 6 &&
    monday.hour == sunday.hour && monday.minute == sunday.minute
  }

  /** Day 1 of the calendar is 0001-01-01, and the ordinals of the ends of years 9998 and 9999. */
  lemma YearBounds(t: DateTime)
    requires ValidDate(t.year, t.month, t.day)
    ensures t.year >= 1 <==> DayNumber(t) >= 1
    ensures t.year <= 9998 <==> DayNumber(t) <= 3651694
    ensures t.year <= 9999 <==> DayNumber(t) <= 3652059
  {
    YearBoundary(t, 1);
    YearBoundary(t, 9999);
    YearBoundary(t, 10000);
    assert DaysBeforeYear(1) == 0;
    assert DaysBeforeYear(9999) == 3651694 by {
      assert 9998 / 4 == 2499 && 9998 / 100 == 99 && 9998 / 400 == 24;
    }
    assert DaysBeforeYear(10000) == 3652059 by {
      assert 9999 / 4 == 2499 && 9999 / 100 == 99 && 9999 / 400 == 24;
    }
  }

  /** Every valid date of year 1 to 9998 has a whole week around it. */
  lemma WeekRangeSucceeds(date: string)
    requires ParseDate(date).Some? && ParseDate(date).value.year <= 9998
    ensures GetWeekRange(date).Success?
  {
    WeekInRange(ParseDate(date).value);
  }

  lemma WeekInRange(d: DateTime)
    requires Valid(d) && 1 <= d.year <= 9998
    ensures InDatetimeRange(MondayOf(d)) && InDatetimeRange(SundayAfter(MondayOf(d)))
  {
    var n := DayNumber(d);
    var monday := MondayOf(d);
    var sunday := SundayAfter(monday);
    YearBounds(d);
    MondayNotBeforeDayOne(n);
    assert 1 <= DayNumber(monday) <= DayNumber(sunday) <= 3651700;
    YearBounds(monday);
    YearBounds(sunday);
  }

  /** The Monday of a week that holds a day of the calendar is itself a day of the calendar. */
  lemma MondayNotBeforeDayOne(n: int)
    requires n >= 1
    ensures n - WeekdayOf(n) + 1 >= 1
  {
    var w := WeekdayOf(n);
    var q := (n - w) / 7;
    assert n - w == 7 * q;
  }

  /**
   * `get_last_week`: the Monday and the Sunday of the week before the one of
   * `now`, at `now`'s time of day.
   */
  function GetLastWeek(now: DateTime): (r: Result<(DateTime, DateTime), HelperError>)
    requires Valid(now)
    ensures r.Success? ==>
      IsWeek(r.value.0, r.value.1) &&
      r.value.0.hour == now.hour && r.value.0.minute == now.minute &&
      DayNumber(r.value.0) <= DayNumber(now) - 7 <= DayNumber(r.value.1)
  {
    var weekAgo := AddDays(now, -7);
    if !InDatetimeRange(weekAgo) then Failure(DateOverflow)
    else
      var monday := MondayOf(weekAgo);
      if !InDatetimeRange(monday) then Failure(DateOverflow)
      else
        var sunday := SundayAfter(monday);
        if !InDatetimeRange(sunday) then Failure(DateOverflow)
        else Success((monday, sunday))
  }

  /** The last week ends the day before the Monday of the current week. */
  lemma LastWeekBeforeThisWeek(now: DateTime)
    requires Valid(now) && GetLastWeek(now).Success?
    ensures DayNumber(GetLastWeek(now).value.1) + 1 == DayNumber(MondayOf(now))
  {
    var n := DayNumber(now);
    var weekAgo := AddDays(now, -7);
    var m := DayNumber(weekAgo);
    assert m == n + 7 * -1;
    WeekdayOfShift(n, -1);
    assert WeekdayOf(m) == WeekdayOf(n);
  }
  /**
   * As written, the range keeps the clock's time of day, while the report
   * compares it with day keys at midnight: last Monday's records are left out
   * unless the clock reads exactly midnight, and last Sunday's are kept.
   */
  lemma LastWeekMissesMonday(now: DateTime)
    requires Valid(now) && GetLastWeek(now).Success? && !IsMidnight(now)
    ensures var (monday, sunday) := GetLastWeek(now).value;
      !InRange(Midnight(monday), monday, sunday) && InRange(Midnight(sunday), monday, sunday)
  {
  }

  /** A clock reading that shows it: Wednesday 2024-05-15 10:30. */
  lemma LastWeekMissesMondayExample()
    ensures GetLastWeek(DateTime(2024, 5, 15, 10, 30)).Success?
    ensures GetLastWeek(DateTime(2024, 5, 15, 10, 30)).value.0 == DateTime(2024, 5, 6, 10, 30)
    ensures !InRange(DateTime(2024, 5, 6, 0, 0), DateTime(2024, 5, 6, 10, 30), DateTime(2024, 5, 12, 10, 30))
  {
    ExampleMonday(DateTime(2024, 5, 15, 10, 30), DateTime(2024, 5, 6, 10, 30));
    ExampleExcluded(DateTime(2024, 5, 6, 0, 0), DateTime(2024, 5, 6, 10, 30), DateTime(2024, 5, 12, 10, 30));
  }

  /** The Monday of the week before 2024-05-15 10:30 is 2024-05-06 10:30, and the week fits the calendar. */
  lemma ExampleMonday(now: DateTime, monday: DateTime)
    requires now == DateTime(2024, 5, 15, 10, 30) && monday == DateTime(2024, 5, 6, 10, 30)
    ensures InDatetimeRange(AddDays(now, -7))
    ensures MondayOf(AddDays(now, -7)) == monday
    ensures InDatetimeRange(monday) && InDatetimeRange(SundayAfter(monday))
  {
    assert DayNumber(now) == 739021 by {
      assert DaysBeforeYear(2024) == 738885 by {
        assert 2023 / 4 == 505 && 2023 / 100 == 20 && 2023 / 400 == 5;
      }
    }
    var weekAgo := AddDays(now, -7);
    assert DayNumber(weekAgo) == 739014;
    assert WeekdayOf(739014) == 3 by {
      assert 739014 % 7 == 3;
    }
    YearBounds(weekAgo);
    var m := MondayOf(weekAgo);
    assert m == AddDays(weekAgo, -2);
    assert DayNumber(m) == 739012;
    YearBounds(m);
    SundayYear(m);
    MinuteNumberOrder(m, monday);
    DayNumberOrder(m, monday);
  }

  /** Midnight on the Monday comes before the Monday at 10:30. */
  lemma ExampleExcluded(day: DateTime, monday: DateTime, sunday: DateTime)
    requires day == DateTime(2024, 5, 6, 0, 0) && monday == DateTime(2024, 5, 6, 10, 30)
    ensures !InRange(day, monday, sunday)
  {
    assert Valid(day) && Valid(monday);
    MinuteNumberOrder(day, monday);
  }

  /** The range the report evidently wants: last week's Monday and Sunday at midnight. */
  function GetLastWeekFixed(now: DateTime): (r: Result<(DateTime, DateTime), HelperError>)
    requires Valid(now)
    ensures r.Success? <==> GetLastWeek(now).Success?
    ensures r.Success? ==>
      IsWeek(r.value.0, r.value.1) && IsMidnight(r.value.0) && IsMidnight(r.value.1) &&
      DayNumber(r.value.0) <= DayNumber(now) - 7 <= DayNumber(r.value.1)
  {
    match GetLastWeek(now)
    case Failure(e) => Failure(e)
    case Success((monday, sunday)) =>
      MidnightWeek(monday, sunday);
      Success((Midnight(monday), Midnight(sunday)))
  }

  /** Moving both ends of a week to midnight keeps it a week. */
  lemma MidnightWeek(monday: DateTime, sunday: DateTime)
    requires IsWeek(monday, sunday)
    ensures IsWeek(Midnight(monday), Midnight(sunday))
    ensures DayNumber(Midnight(monday)) == DayNumber(monday) && DayNumber(Midnight(sunday)) == DayNumber(sunday)
  {
    MidnightSameDay(monday);
    MidnightSameDay(sunday);
  }

  /**
   * With the corrected range, a day is reported exactly when it is one of the
   * seven days before the Monday of `now`'s week.
   */
  lemma LastWeekFixedCoversWeek(now: DateTime, day: DateTime)
    requires Valid(now) && GetLastWeekFixed(now).Success? && IsMidnight(day)
    ensures var (monday, sunday) := GetLastWeekFixed(now).value;
      InRange(day, monday, sunday) <==> DayNumber(monday) <= DayNumber(day) <= DayNumber(sunday)
    ensures var (monday, sunday) := GetLastWeekFixed(now).value;
      InRange(day, monday, sunday) <==> DayNumber(MondayOf(now)) - 7 <= DayNumber(day) < DayNumber(MondayOf(now))
  {
    var (monday, sunday) := GetLastWeekFixed(now).value;
    LastWeekBeforeThisWeek(now);
    assert DayNumber(sunday) + 1 == DayNumber(MondayOf(now)) && DayNumber(monday) + 6 == DayNumber(sunday);
  }

  /** Any clock reading from the second week of the calendar to year 9999 has a last week. */
  lemma LastWeekSucceeds(now: DateTime)
    requires Valid(now) && InDatetimeRange(now) && DayNumber(now) >= 8
    ensures GetLastWeek(now).Success?
  {
    var weekAgo := AddDays(now, -7);
    var monday := MondayOf(weekAgo);
    var sunday := SundayAfter(monday);
    MondayFromDayOne(DayNumber(monday));
    YearBounds(now);
    assert 1 <= DayNumber(monday) && DayNumber(sunday) < DayNumber(now);
    YearBounds(weekAgo);
    YearBounds(monday);
    YearBounds(sunday);
    assert InDatetimeRange(weekAgo) && InDatetimeRange(monday) && InDatetimeRange(sunday);
  }

  /** 0001-01-01 is a Monday, so no Monday falls in the six days before it. */
  lemma MondayFromDayOne(n: int)
    requires n > -6 && WeekdayOf(n) == 1
    ensures n >= 1
  {
  }

  /** The Sunday after a Monday of year 1 to 9998 is a day of the `datetime` range. */
  lemma SundayYear(monday: DateTime)
    requires Valid(monday) && IsoWeekday(monday) == 1 && 1 <= monday.year <= 9998
    ensures InDatetimeRange(SundayAfter(monday))
  {
    YearBounds(monday);
    YearBounds(SundayAfter(monday));
  }

  // ---------------------------------------------------------------------------
  // Months

  /** The month argument: an integer (from `get_last_month`) or command-line text. */
  datatype MonthArg = Number(n: int) | Literal(s: string)

  /** `int(arg)`, when it succeeds. */
  function ArgInt(arg: MonthArg): Option<int> {
    match arg
    case Number(n) => Some(n)
    case Literal(s) => ParseInt(s)
  }

  /** `'{}'.format(arg)` */
  function ArgText(arg: MonthArg): string {
    match arg
    case Number(n) => IntToString(n)
    case Literal(s) => s
  }

  /**
   * `parse_month_arg`: a bare month number is taken in the current year;
   * otherwise the argument must be "YYYY-MM". `sys.exit` and the `ValueError`
   * of unpacking a split that is not two parts are failures.
   */
  function ParseMonthArg(arg: MonthArg, currentYear: int): (r: Result<(int, int), HelperError>)
    ensures r.Success? ==> 1 <= r.value.1 <= 12
    ensures ArgInt(arg).Some? ==>
      r == if 1 <= ArgInt(arg).value <= 12 then Success((currentYear, ArgInt(arg).value)) else Failure(Exit(MonthRangeMessage))
    ensures ArgInt(arg).None? && |SplitOn(ArgText(arg), '-')| != 2 ==> r == Failure(UnpackError(|SplitOn(ArgText(arg), '-')|))
  {
    match ArgInt(arg)
    case Some(month) =>
      if month < 1 || month > 12 then Failure(Exit(MonthRangeMessage)) else Success((currentYear, month))
    case None =>
      var parts := SplitOn(ArgText(arg), '-');
      if |parts| != 2 then Failure(UnpackError(|parts|))
      else
        match (ParseInt(parts[0]), ParseInt(parts[1]))
        case (Some(year), Some(month)) =>
          if month < 1 || month > 12 then Failure(Exit(MonthRangeMessage)) else Success((year, month))
        case _ => Failure(Exit(YearMonthMessage))
  }

  /**
   * "Y-M" whose parts `int()` reads (zero-padded "2015-09" included) gives that
   * year and month, or the range error.
   */
  lemma YearMonthParts(year: string, month: string, y: int, m: int, currentYear: int)
    requires '-' !in year && '-' !in month
    requires ParseInt(year + "-" + month) == None
    requires ParseInt(year) == Some(y) && ParseInt(month) == Some(m)
    ensures ParseMonthArg(Literal(year + "-" + month), currentYear) ==
      if 1 <= m <= 12 then Success((y, m)) else Failure(Exit(MonthRangeMessage))
  {
    SplitDash(year, month);
  }

  /** `"Y-M".split('-')` for parts without a '-'. */
  lemma SplitDash(year: string, month: string)
    requires '-' !in year && '-' !in month
    ensures SplitOn(year + "-" + month, '-') == [year, month]
  {
    SplitOnPrefix(year, month, '-');
    SplitOnFree(month, '-');
  }

  /** A zero-padded month ("2015-09") reads back as that year and month. */
  lemma YearMonthPadded(year: nat, month: nat, currentYear: int)
    requires 1 <= month <= 9
    ensures ParseMonthArg(Literal(IntToString(year) + "-" + "0" + IntToString(month)), currentYear) ==
      Success((year, month))
  {
    var y, m := IntToString(year), "0" + IntToString(month);
    assert y + "-" + "0" + IntToString(month) == y + "-" + m;
    LeadingZero(IntToString(month));
    NatToStringNoDash(year);
    NatToStringNoDash(month);
    assert '-' !in m;
    NotAnInt(y, m);
    IntToStringRoundTrip(year);
    NatToStringValue(month);
    DigitsStripped(m);
    YearMonthParts(y, m, year, month, currentYear);
  }

  /** "Y-M" with non-negative numbers reads back as that year and month, or the range error. */
  lemma YearMonthRoundTrip(year: nat, month: nat, currentYear: int)
    ensures ParseMonthArg(Literal(IntToString(year) + "-" + IntToString(month)), currentYear) ==
      if 1 <= month <= 12 then Success((year, month)) else Failure(Exit(MonthRangeMessage))
  {
    var y, m := IntToString(year), IntToString(month);
    NotAnInt(y, m);
    NatToStringNoDash(year);
    NatToStringNoDash(month);
    IntToStringRoundTrip(year);
    IntToStringRoundTrip(month);
    YearMonthParts(y, m, year, month, currentYear);
  }

  /** Two numerals joined by '-' are not an integer. */
  lemma NotAnInt(a: string, b: string)
    requires a != [] && AllDigits(a) && b != [] && AllDigits(b)
    ensures ParseInt(a + "-" + b) == None
  {
    var s := a + "-" + b;
    assert !IsSpace(s[0]) && !IsSpace(s[|s| - 1]);
    StripStripped(s);
    assert s[|a|] == '-';
    assert !AllDigits(s);
  }

  /** Non-numeric parts of a "YYYY-MM" argument are the format error. */
  lemma YearMonthNotNumbers(year: string, month: string, currentYear: int)
    requires '-' !in year && '-' !in month
    requires ParseInt(year + "-" + month) == None
    requires ParseInt(year) == None || ParseInt(month) == None
    ensures ParseMonthArg(Literal(year + "-" + month), currentYear) == Failure(Exit(YearMonthMessage))
  {
    SplitDash(year, month);
  }

  /** `'{}-{}'.format(year, arg) if year else arg`: a year other than 0 is put in front. */
  function WithYear(arg: MonthArg, year: Option<int>): (r: MonthArg)
    ensures r == arg <==> year.None? || year.value == 0
    ensures r != arg ==> r.Literal? && |r.s| > |ArgText(arg)|
  {
    if year.Some? && year.value != 0 then Literal(IntToString(year.value) + "-" + ArgText(arg)) else arg
  }

  /**
   * `get_month_range`: the first and the last day of the month the argument
   * names, at midnight. The dates are read back with `strptime('%Y-%m-%d')`,
   * which needs a four-digit year.
   */
  function GetMonthRange(arg: MonthArg, year: Option<int>, currentYear: int): (r: Result<(DateTime, DateTime), HelperError>)
    ensures var parsed := ParseMonthArg(WithYear(arg, year), currentYear);
      (parsed.Failure? ==> r == Failure(parsed.error)) &&
      (r.Success? <==> parsed.Success? && 1000 <= parsed.value.0 <= 9999) &&
      (parsed.Success? && !(1000 <= parsed.value.0 <= 9999) ==> r == Failure(YearOutOfRange(parsed.value.0))) &&
      (r.Success? ==> (r.value.0.year, r.value.0.month) == parsed.value)
    ensures r.Success? ==>
      var (first, last) := r.value;
      Valid(first) && Valid(last) && IsMidnight(first) && IsMidnight(last) &&
      InDatetimeRange(first) && 1000 <= first.year &&
      first.year == last.year && first.month == last.month &&
      first.day == 1 && last.day == DaysInMonth(first.year, first.month)
  {
    match ParseMonthArg(WithYear(arg, year), currentYear)
    case Failure(e) => Failure(e)
    case Success((y, m)) =>
      if y < 1000 || y > 9999 then Failure(YearOutOfRange(y))
      else Success((DateTime(y, m, 1, 0, 0), DateTime(y, m, DaysInMonth(y, m), 0, 0)))
  }

  /** A month range holds exactly the days of that month. */
  lemma MonthRangeCovers(arg: MonthArg, year: Option<int>, currentYear: int, day: DateTime)
    requires GetMonthRange(arg, year, currentYear).Success? && Valid(day) && IsMidnight(day)
    ensures var (first, last) := GetMonthRange(arg, year, currentYear).value;
      InRange(day, first, last) <==> day.year == first.year && day.month == first.month
  {
    var (first, last) := GetMonthRange(arg, year, currentYear).value;
    MinuteNumberOrder(first, day);
    MinuteNumberOrder(day, last);
  }

  /** February of a leap year runs to the 29th. */
  lemma LeapFebruary(year: int, currentYear: int)
    requires 1000 <= year <= 9999 && IsLeapYear(year)
    ensures GetMonthRange(Number(2), Some(year), currentYear) ==
      Success((DateTime(year, 2, 1, 0, 0), DateTime(year, 2, 29, 0, 0)))
  {
    YearMonthRoundTrip(year, 2, currentYear);
  }

  /**
   * `get_last_month` as written: the month before the current one, in the
   * current year. The `month == 12` branch cannot be taken, so January fails.
   */
  function GetLastMonth(now: DateTime): (r: Result<(DateTime, DateTime), HelperError>)
    requires Valid(now)
    ensures now.month == 1 ==> r.Failure?
    ensures r.Success? ==> r.value.0.year == now.year && r.value.0.month == now.month - 1
  {
    var month := now.month - 1;
    if month == 12 then GetMonthRange(Number(month), Some(now.year - 1), now.year)
    else GetMonthRange(Number(month), None, now.year)
  }

  /** From February to December, the previous month of the same year. */
  lemma LastMonthWithinYear(now: DateTime)
    requires Valid(now) && now.month >= 2 && 1000 <= now.year <= 9999
    ensures GetLastMonth(now) ==
      Success((DateTime(now.year, now.month - 1, 1, 0, 0), DateTime(now.year, now.month - 1, DaysInMonth(now.year, now.month - 1), 0, 0)))
  {
  }

  /** In January the month computed is 0, and the call fails with the range error. */
  lemma LastMonthJanuary(now: DateTime)
    requires Valid(now) && now.month == 1
    ensures GetLastMonth(now) == Failure(Exit(MonthRangeMessage))
  {
  }

  /** The evidently intended selector: in January, December of the year before. */
  function GetLastMonthFixed(now: DateTime): (r: Result<(DateTime, DateTime), HelperError>)
    requires Valid(now) && InDatetimeRange(now)
    ensures r.Success? && now.month == 1 ==> r.value.0.year == now.year - 1 && r.value.0.month == 12
    ensures r.Success? && now.month > 1 ==> r.value.0.year == now.year && r.value.0.month == now.month - 1
  {
    var month := if now.month == 1 then 12 else now.month - 1;
    var year := if now.month == 1 then Some(now.year - 1) else None;
    MonthRangeAsked(month, year, now.year);
    GetMonthRange(Number(month), year, now.year)
  }

  /** A month asked for, with or without a year in front, is that month of that year. */
  lemma MonthRangeAsked(month: nat, year: Option<int>, currentYear: int)
    requires year.Some? ==> year.value >= 0
    ensures var r := GetMonthRange(Number(month), year, currentYear);
      r.Success? ==>
        r.value.0.month == month && r.value.0.year == (if year.Some? && year.value != 0 then year.value else currentYear)
  {
    if year.Some? && year.value != 0 {
      assert WithYear(Number(month), year) == Literal(IntToString(year.value) + "-" + IntToString(month));
      YearMonthRoundTrip(year.value, month, currentYear);
    } else {
      MonthOfYear(month, currentYear);
    }
  }

  /** A bare month number is that month of the current year. */
  lemma MonthOfYear(month: int, currentYear: int)
    ensures var r := GetMonthRange(Number(month), None, currentYear);
      r.Success? ==> r.value.0.year == currentYear && r.value.0.month == month
  {
  }

  /** A month number put after the year before the current one reads as that month of that year. */
  lemma MonthAfterYear(month: nat, currentYear: int)
    requires currentYear >= 2
    ensures ParseMonthArg(WithYear(Number(month), Some(currentYear - 1)), currentYear) ==
      if 1 <= month <= 12 then Success((currentYear - 1, month)) else Failure(Exit(MonthRangeMessage))
  {
    assert WithYear(Number(month), Some(currentYear - 1)) ==
      Literal(IntToString(currentYear - 1) + "-" + IntToString(month));
    YearMonthRoundTrip(currentYear - 1, month, currentYear);
  }

  /** The corrected selector always yields the previous calendar month. */
  lemma LastMonthFixedPrevious(now: DateTime)
    requires Valid(now) && 1001 <= now.year <= 9999
    ensures var (y, m) := if now.month == 1 then (now.year - 1, 12) else (now.year, now.month - 1);
      GetLastMonthFixed(now) == Success((DateTime(y, m, 1, 0, 0), DateTime(y, m, DaysInMonth(y, m), 0, 0)))
  {
    if now.month == 1 {
      assert ArgText(Number(12)) == IntToString(12) == "12";
      YearMonthRoundTrip(now.year - 1, 12, now.year);
    }
  }

  // ---------------------------------------------------------------------------
  // Summary and report

  /** What the report needs of a project: its name, its kind and its total seconds. */
  datatype Project = Project(name: string, isSlack: bool, totalTime: int)

  /** `[p for p in projects if p.is_slack == slack]` */
  function Section(ps: seq<Project>, slack: bool): (r: seq<Project>)
    ensures |r| <= |ps|
    ensures forall i :: 0 <= i < |r| ==> r[i].isSlack == slack
    ensures forall p :: p in r <==> p in ps && p.isSlack == slack
  {
    if ps == [] then []
    else (if ps[0].isSlack == slack then [ps[0]] else []) + Section(ps[1..], slack)
  }

  /** `sum([p.total_time for p in ps], timedelta())` */
  function TotalTime(ps: seq<Project>): int {
    if ps == [] then 0 else ps[0].totalTime + TotalTime(ps[1..])
  }

  /** The work and the slack projects together are all the projects. */
  lemma {:induction false} SectionsPartition(ps: seq<Project>)
    ensures multiset(Section(ps, false)) + multiset(Section(ps, true)) == multiset(ps)
  {
    if ps != [] {
      var x, rest := ps[0], ps[1..];
      SectionsPartition(rest);
      var work, slack := Section(rest, false), Section(rest, true);
      assert multiset(ps) == multiset{x} + multiset(rest) by {
        assert ps == [x] + rest;
      }
      if x.isSlack {
        assert Section(ps, true) == [x] + slack;
        assert Section(ps, false) == work;
        assert multiset([x] + slack) == multiset{x} + multiset(slack);
      } else {
        assert Section(ps, false) == [x] + work;
        assert Section(ps, true) == slack;
        assert multiset([x] + work) == multiset{x} + multiset(work);
      }
    }
  }

  /** The work and the slack totals add up to the total of all projects. */
  lemma {:induction false} SectionsTotal(ps: seq<Project>)
    ensures TotalTime(Section(ps, false)) + TotalTime(Section(ps, true)) == TotalTime(ps)
  {
    if ps != [] {
      var x, rest := ps[0], ps[1..];
      SectionsTotal(rest);
      var same := Section(rest, x.isSlack);
      assert Section(ps, x.isSlack) == [x] + same;
      assert Section(ps, !x.isSlack) == Section(rest, !x.isSlack);
      TotalTimeAppend([x], same);
    }
  }

  /** `sum` adds from the left: the total is the total of all but the last, plus the last. */
  lemma TotalTimeLeftFold(ps: seq<Project>)
    requires ps != []
    ensures TotalTime(ps) == TotalTime(ps[..|ps| - 1]) + ps[|ps| - 1].totalTime
  {
    var last := ps[|ps| - 1];
    assert ps == ps[..|ps| - 1] + [last];
    TotalTimeAppend(ps[..|ps| - 1], [last]);
  }

  lemma {:induction false} TotalTimeAppend(a: seq<Project>, b: seq<Project>)
    ensures TotalTime(a + b) == TotalTime(a) + TotalTime(b)
  {
    if a == [] {
      assert a + b == b;
    } else {
      assert (a + b)[1..] == a[1..] + b;
      TotalTimeAppend(a[1..], b);
    }
  }

  /** Longest first: each project at least as long as the next. */
  predicate Descending(ps: seq<Project>) {
    |ps| <= 1 || (ps[0].totalTime >= ps[1].totalTime && Descending(ps[1..]))
  }

  /** In a descending sequence every project is at least as long as any later one. */
  lemma {:induction false} DescendingPairs(ps: seq<Project>)
    requires Descending(ps)
    ensures forall i, j :: 0 <= i < j < |ps| ==> ps[i].totalTime >= ps[j].totalTime
  {
    if |ps| > 1 {
      DescendingPairs(ps[1..]);
      forall i, j | 0 <= i < j < |ps| ensures ps[i].totalTime >= ps[j].totalTime {
        if i == 0 && j > 1 {
          assert ps[1..][0] == ps[1] && ps[1..][j - 1] == ps[j];
        } else if i > 0 {
          assert ps[1..][i - 1] == ps[i] && ps[1..][j - 1] == ps[j];
        }
      }
    }
  }

  /** The projects with a given total, in order. */
  function WithTime(ps: seq<Project>, t: int): seq<Project> {
    if ps == [] then []
    else (if ps[0].totalTime == t then [ps[0]] else []) + WithTime(ps[1..], t)
  }

  /** Puts `x` before the first project that is not longer than it. */
  function Insert(x: Project, s: seq<Project>): (r: seq<Project>)
    ensures multiset(r) == multiset(s) + multiset{x}
  {
    if s == [] || s[0].totalTime <= x.totalTime then [x] + s
    else
      assert s == [s[0]] + s[1..];
      [s[0]] + Insert(x, s[1..])
  }

  lemma {:induction false} InsertTotal(x: Project, s: seq<Project>)
    ensures TotalTime(Insert(x, s)) == x.totalTime + TotalTime(s)
  {
    if s == [] || s[0].totalTime <= x.totalTime {
      assert ([x] + s)[1..] == s;
    } else {
      InsertTotal(x, s[1..]);
      assert ([s[0]] + Insert(x, s[1..]))[1..] == Insert(x, s[1..]);
    }
  }

  lemma {:induction false} InsertDescending(x: Project, s: seq<Project>)
    requires Descending(s)
    ensures Descending(Insert(x, s))
  {
    if !(s == [] || s[0].totalTime <= x.totalTime) {
      var rest := Insert(x, s[1..]);
      InsertDescending(x, s[1..]);
      assert rest[0] == x || rest[0] == s[1];
      assert ([s[0]] + rest)[1..] == rest;
    }
  }

  /** Inserting does not reorder the projects of any one total; `x` comes first among its equals. */
  lemma {:induction false} InsertStable(x: Project, s: seq<Project>, t: int)
    ensures WithTime(Insert(x, s), t) == (if x.totalTime == t then [x] else []) + WithTime(s, t)
  {
    if s == [] || s[0].totalTime <= x.totalTime {
      assert ([x] + s)[1..] == s;
    } else {
      var r := Insert(x, s[1..]);
      InsertStable(x, s[1..], t);
      assert ([s[0]] + r)[1..] == r;
      var head := if s[0].totalTime == t then [s[0]] else [];
      assert WithTime(Insert(x, s), t) == head + WithTime(r, t);
      assert WithTime(s, t) == head + WithTime(s[1..], t);
      if x.totalTime == t {
        assert head == [];
      }
    }
  }

  /**
   * `sorted(ps, key=lambda p: p.total_time, reverse=True)`, as an insertion
   * sort: a permutation of its input.
   */
  function SortByTime(ps: seq<Project>): (r: seq<Project>)
    ensures multiset(r) == multiset(ps)
  {
    if ps == [] then []
    else
      assert ps == [ps[0]] + ps[1..];
      Insert(ps[0], SortByTime(ps[1..]))
  }

  /** Sorting puts the longest projects first. */
  lemma {:induction false} SortDescending(ps: seq<Project>)
    ensures Descending(SortByTime(ps))
  {
    if ps != [] {
      SortDescending(ps[1..]);
      InsertDescending(ps[0], SortByTime(ps[1..]));
    }
  }

  /** Sorting keeps the total. */
  lemma {:induction false} SortTotal(ps: seq<Project>)
    ensures TotalTime(SortByTime(ps)) == TotalTime(ps)
  {
    if ps != [] {
      SortTotal(ps[1..]);
      InsertTotal(ps[0], SortByTime(ps[1..]));
    }
  }

  /** The sort is stable: projects with equal totals keep their order. */
  lemma {:induction false} SortStable(ps: seq<Project>, t: int)
    ensures WithTime(SortByTime(ps), t) == WithTime(ps, t)
  {
    if ps != [] {
      SortStable(ps[1..], t);
      InsertStable(ps[0], SortByTime(ps[1..]), t);
    }
  }

  /** `print_stats`: the work and the slack totals. */
  function PrintStats(ps: seq<Project>): (lines: seq<string>) {
    ["Work: " + FormatTimedelta(TotalTime(Section(ps, false))), "Slack: " + FormatTimedelta(TotalTime(Section(ps, true)))]
  }

  /** `c * n` */
  function Repeat(c: char, n: nat): (r: string)
    ensures |r| == n && forall i :: 0 <= i < n ==> r[i] == c
  {
    seq(n, _ => c)
  }

  /**
   * `'{:^width}'` with a fill character: the text in the middle, the left pad
   * half the padding rounded down; text at least as wide is left alone.
   */
  function CenterFill(s: string, width: nat, fill: char): (r: string)
    ensures |s| >= width ==> r == s
    ensures |s| < width ==>
      var left := (width - |s|) / 2;
      |r| == width && r[left..left + |s|] == s &&
      (forall i :: 0 <= i < left ==> r[i] == fill) &&
      (forall i :: left + |s| <= i < width ==> r[i] == fill) &&
      left <= width - |s| - left <= left + 1
  {
    if |s| >= width then s
    else
      var pad := width - |s|;
      var r := Repeat(fill, pad / 2) + s + Repeat(fill, pad - pad / 2);
      assert r[pad / 2..pad / 2 + |s|] == s;
      r
  }

  /** `'{:-^80}'.format(' TITLE {} '.format(format_timedelta(seconds)))` */
  function Banner(title: string, seconds: int): string {
    CenterFill(" " + title + " " + FormatTimedelta(seconds) + " ", 80, '-')
  }

  /** A colorizer: a category and a text to the text as printed. */
  type Colorizer = (string, string) -> string

  /** `_make_colorizer`; the enabled branch is `termcolor.colored`, passed in as `colored`. */
  function MakeColorizer(colorize: bool, colored: Colorizer): (c: Colorizer)
    ensures !colorize ==> forall category, s :: c(category, s) == s
  {
    if colorize then colored else (category, s) => s
  }

  /**
   * A line of the report: a printed text, or the lines `project_report` prints
   * for one project given its section's total (that method is not part of
   * this model).
   */
  datatype ReportLine = Line(text: string) | ProjectReport(project: Project, sectionTotal: int)

  function ProjectReports(ps: seq<Project>, total: int): (r: seq<ReportLine>)
    ensures |r| == |ps|
    ensures forall i :: 0 <= i < |ps| ==> r[i] == ProjectReport(ps[i], total)
  {
    seq(|ps|, i requires 0 <= i < |ps| => ProjectReport(ps[i], total))
  }

  /** The dates of the header: one date, or "<from> to <to>". */
  function ReportDates(from: DateTime, to: DateTime, dateText: DateTime -> string): (r: string)
    ensures to == from ==> r == dateText(from)
    ensures to != from ==>
      var a, b := dateText(from), dateText(to);
      |r| == |a| + 4 + |b| && r[..|a|] == a && r[|a|..|a| + 4] == " to " && r[|a| + 4..] == b
  {
    if to == from then dateText(to) else dateText(from) + " to " + dateText(to)
  }

  /**
   * `print_report`: the header, then the work banner and the work projects
   * longest first, then the same for slack. `dateText` is
   * `strftime('%a %d %b %Y')`.
   */
  function PrintReport(projects: seq<Project>, from: DateTime, to: DateTime, colorize: bool, colored: Colorizer,
                       dateText: DateTime -> string): (r: seq<ReportLine>)
  {
    var work := SortByTime(Section(projects, false));
    var slack := SortByTime(Section(projects, true));
    var workTime := TotalTime(work);
    var slackTime := TotalTime(slack);
    var c := MakeColorizer(colorize, colored);
    [Line(c("report_header", "Work report for " + ReportDates(from, to, dateText))),
     Line(c("section_header", Banner("WORK", workTime)))] +
    ProjectReports(work, workTime) +
    [Line(c("section_header", Banner("SLACK", slackTime)))] +
    ProjectReports(slack, slackTime)
  }

  /** The projects a report lists, in order. */
  function Listed(lines: seq<ReportLine>): seq<Project> {
    if lines == [] then []
    else (if lines[0].ProjectReport? then [lines[0].project] else []) + Listed(lines[1..])
  }

  lemma {:induction false} ListedReports(ps: seq<Project>, total: int)
    ensures Listed(ProjectReports(ps, total)) == ps
  {
    if ps != [] {
      var r := ProjectReports(ps, total);
      assert r[1..] == ProjectReports(ps[1..], total);
      ListedReports(ps[1..], total);
    }
  }

  lemma {:induction false} ListedAppend(a: seq<ReportLine>, b: seq<ReportLine>)
    ensures Listed(a + b) == Listed(a) + Listed(b)
  {
    if a == [] {
      assert a + b == b;
    } else {
      assert (a + b)[1..] == a[1..] + b;
      ListedAppend(a[1..], b);
      var h := if a[0].ProjectReport? then [a[0].project] else [];
      assert (a + b)[0] == a[0];
      assert Listed(a + b) == h + (Listed(a[1..]) + Listed(b));
      assert h + (Listed(a[1..]) + Listed(b)) == h + Listed(a[1..]) + Listed(b);
    }
  }

  /** Each section lists as many projects as there are of its kind. */
  lemma SectionSizes(projects: seq<Project>)
    ensures |SortByTime(Section(projects, false))| == |Section(projects, false)|
    ensures |SortByTime(Section(projects, true))| == |Section(projects, true)|
    ensures |Section(projects, false)| + |Section(projects, true)| == |projects|
  {
    var work, slack := Section(projects, false), Section(projects, true);
    SectionsPartition(projects);
    assert |multiset(SortByTime(work))| == |multiset(work)|;
    assert |multiset(SortByTime(slack))| == |multiset(slack)|;
    assert |multiset(work)| + |multiset(slack)| == |multiset(projects)|;
  }

  /** Where the parts of a report laid out as three plain lines and two sections sit. */
  lemma LayoutParts(h0: ReportLine, h1: ReportLine, a: seq<ReportLine>, h2: ReportLine, b: seq<ReportLine>)
    ensures var r := [h0, h1] + a + [h2] + b;
      |r| == |a| + |b| + 3 && r[0] == h0 && r[1] == h1 && r[|a| + 2] == h2 &&
      r[2..|a| + 2] == a && r[|a| + 3..] == b
  {
    var r := [h0, h1] + a + [h2] + b;
    assert r[2..|a| + 2] == a;
    assert r[|a| + 3..] == b;
  }

  /**
   * Without colour, the report is the plain header, the work banner with the
   * work total, one line per work project longest first, then the slack banner
   * with the slack total and one line per slack project longest first.
   */
  lemma ReportShape(projects: seq<Project>, from: DateTime, to: DateTime, colored: Colorizer, dateText: DateTime -> string)
    ensures var work, slack := Section(projects, false), Section(projects, true);
      PrintReport(projects, from, to, false, colored, dateText) ==
        [Line("Work report for " + ReportDates(from, to, dateText)), Line(Banner("WORK", TotalTime(work)))] +
        ProjectReports(SortByTime(work), TotalTime(work)) +
        [Line(Banner("SLACK", TotalTime(slack)))] +
        ProjectReports(SortByTime(slack), TotalTime(slack))
  {
    SortTotal(Section(projects, false));
    SortTotal(Section(projects, true));
  }

  /** Where the header, the banners and the two sections sit in the report. */
  lemma ReportLayout(projects: seq<Project>, from: DateTime, to: DateTime, colored: Colorizer, dateText: DateTime -> string)
    ensures var r := PrintReport(projects, from, to, false, colored, dateText);
      var work, slack := Section(projects, false), Section(projects, true);
      var w := |work|;
      |r| == |projects| + 3 &&
      r[0] == Line("Work report for " + ReportDates(from, to, dateText)) &&
      r[1] == Line(Banner("WORK", TotalTime(work))) &&
      r[w + 2] == Line(Banner("SLACK", TotalTime(slack))) &&
      r[2..w + 2] == ProjectReports(SortByTime(work), TotalTime(work)) &&
      r[w + 3..] == ProjectReports(SortByTime(slack), TotalTime(slack))
  {
    var work, slack := Section(projects, false), Section(projects, true);
    var h0, h1 := Line("Work report for " + ReportDates(from, to, dateText)), Line(Banner("WORK", TotalTime(work)));
    var h2 := Line(Banner("SLACK", TotalTime(slack)));
    var a, b := ProjectReports(SortByTime(work), TotalTime(work)), ProjectReports(SortByTime(slack), TotalTime(slack));
    SectionSizes(projects);
    assert |a| == |work| && |a| + |b| == |projects|;
    ReportShape(projects, from, to, colored, dateText);
    assert PrintReport(projects, from, to, false, colored, dateText) == [h0, h1] + a + [h2] + b;
    LayoutParts(h0, h1, a, h2, b);
  }

  /** A sorted section holds only projects of its kind. */
  lemma SortedSectionKind(ps: seq<Project>, slack: bool)
    ensures forall i :: 0 <= i < |SortByTime(Section(ps, slack))| ==> SortByTime(Section(ps, slack))[i].isSlack == slack
  {
    var sec := Section(ps, slack);
    var sorted := SortByTime(sec);
    forall i | 0 <= i < |sorted| ensures sorted[i].isSlack == slack {
      assert sorted[i] in multiset(sec);
      var k :| 0 <= k < |sec| && sec[k] == sorted[i];
    }
  }

  lemma {:induction false} ListedPlain(r: seq<ReportLine>)
    requires forall i :: 0 <= i < |r| ==> r[i].Line?
    ensures Listed(r) == []
  {
    if r != [] {
      ListedPlain(r[1..]);
    }
  }

  /** Two sections under three plain lines list the two sections' projects. */
  lemma ListedLayout(h0: ReportLine, h1: ReportLine, a: seq<ReportLine>, h2: ReportLine, b: seq<ReportLine>)
    requires h0.Line? && h1.Line? && h2.Line?
    ensures Listed([h0, h1] + a + [h2] + b) == Listed(a) + Listed(b)
  {
    ListedPlain([h0, h1]);
    ListedPlain([h2]);
    ListedFour([h0, h1], a, [h2], b);
    assert [] + Listed(a) + [] + Listed(b) == Listed(a) + Listed(b);
  }

  lemma ListedFour(a: seq<ReportLine>, b: seq<ReportLine>, c: seq<ReportLine>, d: seq<ReportLine>)
    ensures Listed(a + b + c + d) == Listed(a) + Listed(b) + Listed(c) + Listed(d)
  {
    ListedAppend(a, b);
    ListedAppend(a + b, c);
    ListedAppend(a + b + c, d);
  }

  /** Lines `lo` up to `hi` are reports of projects of one kind, each with the same total. */
  predicate KindLines(r: seq<ReportLine>, lo: nat, hi: nat, slack: bool, total: int)
    requires lo <= hi <= |r|
  {
    forall i :: lo <= i < hi ==> r[i].ProjectReport? && r[i].project.isSlack == slack && r[i].sectionTotal == total
  }

  /** The lines of a section of one kind are reports of projects of that kind, with its total. */
  lemma SectionLines(r: seq<ReportLine>, lo: nat, hi: nat, ps: seq<Project>, total: int, slack: bool)
    requires lo <= hi <= |r| && r[lo..hi] == ProjectReports(ps, total)
    requires forall i :: 0 <= i < |ps| ==> ps[i].isSlack == slack
    ensures KindLines(r, lo, hi, slack, total)
  {
    forall i | lo <= i < hi
      ensures r[i].ProjectReport? && r[i].project.isSlack == slack && r[i].sectionTotal == total
    {
      assert r[i] == r[lo..hi][i - lo];
    }
  }

  /** Each work project line carries a work project and the work total. */
  lemma ReportWorkLines(projects: seq<Project>, from: DateTime, to: DateTime, colored: Colorizer,
                        dateText: DateTime -> string)
    ensures var r := PrintReport(projects, from, to, false, colored, dateText);
      var work := Section(projects, false);
      |work| + 2 <= |r| && KindLines(r, 2, |work| + 2, false, TotalTime(work))
  {
    var r := PrintReport(projects, from, to, false, colored, dateText);
    var work := Section(projects, false);
    ReportLayout(projects, from, to, colored, dateText);
    SectionSizes(projects);
    SortedSectionKind(projects, false);
    SectionLines(r, 2, |work| + 2, SortByTime(work), TotalTime(work), false);
  }

  /** Each slack project line, after the slack banner, carries a slack project and the slack total. */
  lemma ReportSlackLines(projects: seq<Project>, from: DateTime, to: DateTime, colored: Colorizer,
                         dateText: DateTime -> string)
    ensures var r := PrintReport(projects, from, to, false, colored, dateText);
      var w := |Section(projects, false)|;
      |r| == |projects| + 3 && KindLines(r, w + 3, |r|, true, TotalTime(Section(projects, true)))
  {
    var r := PrintReport(projects, from, to, false, colored, dateText);
    var work, slack := Section(projects, false), Section(projects, true);
    ReportLayout(projects, from, to, colored, dateText);
    SectionSizes(projects);
    SortedSectionKind(projects, true);
    SuffixLines(r, |work| + 3, SortByTime(slack), TotalTime(slack), true);
  }

  lemma SuffixLines(r: seq<ReportLine>, lo: nat, ps: seq<Project>, total: int, slack: bool)
    requires lo <= |r| && r[lo..] == ProjectReports(ps, total)
    requires forall i :: 0 <= i < |ps| ==> ps[i].isSlack == slack
    ensures KindLines(r, lo, |r|, slack, total)
  {
    assert r[lo..|r|] == r[lo..];
    SectionLines(r, lo, |r|, ps, total, slack);
  }

  /** Within each section the projects are listed longest first. */
  lemma ReportSectionsDescending(projects: seq<Project>, from: DateTime, to: DateTime, colored: Colorizer,
                                 dateText: DateTime -> string)
    ensures var r := PrintReport(projects, from, to, false, colored, dateText);
      var w := |Section(projects, false)|;
      |r| == |projects| + 3 &&
      Descending(Listed(r[2..w + 2])) && Descending(Listed(r[w + 3..]))
  {
    var work, slack := Section(projects, false), Section(projects, true);
    ReportLayout(projects, from, to, colored, dateText);
    ListedReports(SortByTime(work), TotalTime(work));
    ListedReports(SortByTime(slack), TotalTime(slack));
    SortDescending(work);
    SortDescending(slack);
  }

  /** Every project is listed exactly once. */
  lemma ReportListsEachProjectOnce(projects: seq<Project>, from: DateTime, to: DateTime, colored: Colorizer,
                                   dateText: DateTime -> string)
    ensures multiset(Listed(PrintReport(projects, from, to, false, colored, dateText))) == multiset(projects)
  {
    var work, slack := Section(projects, false), Section(projects, true);
    var sw, ss := SortByTime(work), SortByTime(slack);
    ReportShape(projects, from, to, colored, dateText);
    ListedLayout(Line("Work report for " + ReportDates(from, to, dateText)), Line(Banner("WORK", TotalTime(work))),
                 ProjectReports(sw, TotalTime(work)), Line(Banner("SLACK", TotalTime(slack))),
                 ProjectReports(ss, TotalTime(slack)));
    ListedReports(sw, TotalTime(work));
    ListedReports(ss, TotalTime(slack));
    SectionsPartition(projects);
    assert multiset(sw + ss) == multiset(sw) + multiset(ss);
  }

  /** The summary shows the same two totals as the report's banners. */
  lemma StatsMatchReport(projects: seq<Project>)
    ensures PrintStats(projects)[0] == "Work: " + FormatTimedelta(TotalTime(SortByTime(Section(projects, false))))
    ensures PrintStats(projects)[1] == "Slack: " + FormatTimedelta(TotalTime(SortByTime(Section(projects, true))))
  {
    SortTotal(Section(projects, false));
    SortTotal(Section(projects, true));
  }

  // ---------------------------------------------------------------------------
  // Appending a message

  /**
   * `is_another_day`: whether the last line of the log does not begin with
   * today's date. `file` is the log's lines as `readlines()` gives them, or
   * `None` when it cannot be opened; a missing file or an empty one needs no
   * separator.
   */
  function IsAnotherDay(now: DateTime, file: Option<seq<string>>): (r: bool)
    requires Valid(now) && InDatetimeRange(now)
    ensures r ==> file.Some? && file.value != []
  {
    match file
    case None => false
    case Some(lines) => lines != [] && FormatDate(now) != Prefix(lines[|lines| - 1], 10)
  }

  /** `form_log_message`: "<YYYY-MM-DD HH:MM> <message>\n", after a blank line on a new day. */
  function FormLogMessage(now: DateTime, message: string, file: Option<seq<string>>): string
    requires Valid(now) && InDatetimeRange(now)
  {
    var logMessage := FormatDateTime(now) + " " + message;
    if IsAnotherDay(now, file) then "\n" + logMessage + "\n" else logMessage + "\n"
  }

  /**
   * What is appended reads back, line by line, as an optional blank line the
   * parser skips and then exactly the record of `now` and `message`.
   */
  lemma FormLogMessageReadsBack(now: DateTime, message: string, file: Option<seq<string>>)
    requires Valid(now) && InDatetimeRange(now) && Stripped(message) && '\n' !in message
    ensures var line := FormatDateTime(now) + " " + message + "\n";
      FormLogMessage(now, message, file) == (if IsAnotherDay(now, file) then "\n" else "") + line &&
      '\n' !in line[..|line| - 1] && Skipped("\n") &&
      ParseLine(line) == Success(Some(LogLine(now, message)))
  {
    RecordLine(now, message);
    BlankLineSkipped();
  }

  /** The separator line is blank, so the parser skips it. */
  lemma BlankLineSkipped()
    ensures Skipped("\n")
  {
    StripAppendSpace([], '\n');
    assert [] + ['\n'] == "\n";
  }

  /** The written line has its only newline at the end and parses as the record. */
  lemma RecordLine(now: DateTime, message: string)
    requires Valid(now) && InDatetimeRange(now) && Stripped(message) && '\n' !in message
    ensures var line := FormatDateTime(now) + " " + message + "\n";
      '\n' !in line[..|line| - 1] && ParseLine(line) == Success(Some(LogLine(now, message)))
  {
    var stamp := FormatDateTime(now);
    var body := stamp + " " + message;
    StampNoNewline(now);
    assert '\n' !in body;
    assert (body + "\n")[..|body|] == body;
    ParseLineFormatted(now, message);
    ParseLineNewline(body);
  }

  /** A formatted timestamp holds no line break. */
  lemma StampNoNewline(t: DateTime)
    requires Valid(t) && InDatetimeRange(t)
    ensures '\n' !in FormatDateTime(t)
  {
    var stamp := FormatDateTime(t);
    FormattedNoSpace(t);
    assert stamp == stamp[..10] + [' '] + stamp[11..];
    assert '\n' !in stamp[..10] && '\n' !in stamp[11..];
  }

  /** The line break at the end of a line changes nothing about what it yields. */
  lemma ParseLineNewline(body: string)
    ensures ParseLine(body + "\n") == ParseLine(body)
  {
    StripAppendSpace(body, '\n');
    SameStrip(body + "\n", body);
  }

  /** `parse_lines_new` looks at a line only through its stripped form. */
  lemma SameStrip(a: string, b: string)
    requires Strip(a) == Strip(b)
    ensures ParseLine(a) == ParseLine(b)
  {
  }

  /** Two timestamps print the same date exactly when they are on the same day. */
  lemma FormatDateSameDay(a: DateTime, b: DateTime)
    requires Valid(a) && InDatetimeRange(a) && Valid(b) && InDatetimeRange(b)
    ensures FormatDate(a) == FormatDate(b) <==> Midnight(a) == Midnight(b)
  {
    if FormatDate(a) == FormatDate(b) {
      var ma, mb := Midnight(a), Midnight(b);
      assert FormatDate(ma) == FormatDate(a) && FormatDate(mb) == FormatDate(b);
      ParseFormatDateTime(ma);
      ParseFormatDateTime(mb);
    }
  }

  /**
   * The separator rule: after a line this program wrote at `written`, a new
   * message gets a blank line before it exactly when `now` is another day.
   */
  lemma SeparatorOnNewDay(now: DateTime, earlier: seq<string>, written: DateTime, message: string)
    requires Valid(now) && InDatetimeRange(now) && Valid(written) && InDatetimeRange(written)
    ensures IsAnotherDay(now, Some(earlier + [FormatDateTime(written) + " " + message + "\n"])) <==>
      Midnight(now) != Midnight(written)
  {
    var lines := earlier + [FormatDateTime(written) + " " + message + "\n"];
    var last := lines[|lines| - 1];
    assert Prefix(last, 10) == FormatDateTime(written)[..10] == FormatDate(written);
    FormatDateSameDay(now, written);
  }
}

=== FILE: log_parser.dfy ===
/**
 * The log parser of timeflow: reading `YYYY-MM-DD HH:MM message` lines into
 * per-day records, pairing consecutive records of a day into timelogs, and
 * summing their durations into work and slack tables.
 *
 * The log file is a sequence of lines; a parse failure of the source (an
 * exception escaping `parse_lines_new`) is a `Failure` here.
 */
module LogParser {
  import opened Wrappers
  import opened Text
  import opened Calendar
  import opened Tables

  /** One record of the log: when it was written and what was written. */
  datatype LogLine = LogLine(timestamp: DateTime, message: string)

  /** The time between two consecutive records of a day, described by the later one. */
  datatype Timelog = Timelog(start: DateTime, end: DateTime, project: string, log: string, isSlack: bool)

  /** Why reading the log failed: a kept line with a single token, or a bad date and time. */
  datatype ParseError = MissingTime(line: string) | MalformedTimestamp(text: string)

  /** Midnight of a day -> that day's records in file order. */
  type Days = map<DateTime, seq<LogLine>>

  // ---------------------------------------------------------------------------
  // Messages

  /**
   * Splits a message into project and log text at the first ": ". Without one,
   * a single token is the project (surrounding whitespace kept) with an empty
   * log, and anything else is logged under the project "Other".
   */
  function ParseMessage(message: string): (r: (string, string)) {
    match FindFrom(message, ": ", 0)
    case Some(i) => (message[..i], message[i + 2..])
    case None => if |SplitWs(message, 1)| == 1 then (message, "") else ("Other", message)
  }

  /** The three cases of `parse_message`. */
  lemma ParseMessageCases(message: string)
    ensures Contains(message, ": ") ==>
      ParseMessage(message).0 + ": " + ParseMessage(message).1 == message && !Contains(ParseMessage(message).0, ": ")
    ensures !Contains(message, ": ") && SingleToken(message) ==> ParseMessage(message) == (message, "")
    ensures !Contains(message, ": ") && !SingleToken(message) ==> ParseMessage(message) == ("Other", message)
  {
    match FindFrom(message, ": ", 0)
    case Some(i) =>
      var project := message[..i];
      assert message == project + ": " + message[i + 2..];
      forall j | OccursAt(project, ": ", j) ensures OccursAt(message, ": ", j) {
        assert message[j..j + 2] == project[j..j + 2];
      }
    case None =>
      SplitOnceSingle(message);
  }

  predicate AllStars(s: string) {
    forall i :: 0 <= i < |s| ==> s[i] == '*'
  }

  /** `s.rstrip('**').strip()`: every trailing '*' goes, then the surrounding whitespace. */
  function Clean(s: string): (r: string)
    ensures Stripped(r)
  {
    if s != [] && s[|s| - 1] == '*' then Clean(s[..|s| - 1]) else Strip(s)
  }

  /**
   * Detects the slack marker: a project or log text ending with "**". Both
   * names come back cleaned, slack or not.
   */
  function FindSlack(project: string, log: string): (r: (bool, string, string))
    ensures r.0 <==> EndsWith(project, "**") || EndsWith(log, "**")
    ensures Stripped(r.1) && Stripped(r.2)
  {
    (EndsWith(project, "**") || EndsWith(log, "**"), Clean(project), Clean(log))
  }

  /** The recursion of `Clean` is `rstrip` of the stars followed by `strip`. */
  lemma {:induction false} CleanIsStrip(s: string)
    ensures Clean(s) == Strip(RStripStars(s))
  {
    if s != [] && s[|s| - 1] == '*' {
      CleanIsStrip(s[..|s| - 1]);
    }
  }

  /** Adding stars at the end does not change the cleaned name. */
  lemma {:induction false} CleanStars(s: string, stars: string)
    requires AllStars(stars)
    ensures Clean(s + stars) == Clean(s)
    decreases |stars|
  {
    if stars == [] {
      assert s + stars == s;
    } else {
      var s' := s + stars[..|stars| - 1];
      assert s + stars == s' + "*";
      assert (s' + "*")[..|s'|] == s';
      CleanStars(s, stars[..|stars| - 1]);
    }
  }

  /** A name with no surrounding whitespace and no trailing '*' is its own clean form. */
  lemma CleanPlain(s: string)
    requires Stripped(s) && (s == [] || s[|s| - 1] != '*')
    ensures Clean(s) == s
  {
    StripStripped(s);
  }

  /** "project**" marks a slack timelog, and the marker is not part of the project. */
  lemma SlackMarker(project: string, log: string)
    ensures FindSlack(project + "**", log) == (true, Clean(project), Clean(log))
    ensures FindSlack(project, log + "**") == (true, Clean(project), Clean(log))
  {
    assert (project + "**")[|project + "**"| - 2..] == "**";
    assert (log + "**")[|log + "**"| - 2..] == "**";
    CleanStars(project, "**");
    CleanStars(log, "**");
  }

  /** Without the marker, plain names pass through unchanged as work. */
  lemma WorkUnmarked(project: string, log: string)
    requires Stripped(project) && (project == [] || project[|project| - 1] != '*')
    requires Stripped(log) && (log == [] || log[|log| - 1] != '*')
    ensures FindSlack(project, log) == (false, project, log)
  {
    CleanPlain(project);
    CleanPlain(log);
  }

  // ---------------------------------------------------------------------------
  // Lines

  /** A line that is blank or a '#' comment once stripped. */
  predicate Skipped(line: string) {
    var t := Strip(line);
    t == [] || t[0] == '#'
  }

  /**
   * One line of the log: nothing for a skipped line; otherwise date and time are
   * the first two whitespace-separated tokens and the message is the rest of
   * the line (empty when there is none).
   */
  function ParseLine(line: string): (r: Result<Option<LogLine>, ParseError>)
    ensures r == Success(None) <==> Skipped(line)
    ensures r.Success? && r.value.Some? ==> Valid(r.value.value.timestamp) && InDatetimeRange(r.value.value.timestamp)
    ensures r.Failure? && r.error.MissingTime? <==> !Skipped(line) && |SplitWs(Strip(line), 2)| < 2
    ensures r.Failure? && r.error.MalformedTimestamp? <==>
      !Skipped(line) && |SplitWs(Strip(line), 2)| >= 2 &&
      ParseDateTime(SplitWs(Strip(line), 2)[0] + " " + SplitWs(Strip(line), 2)[1]).None?
  {
    var t := Strip(line);
    if t == [] || t[0] == '#' then Success(None)
    else
      var parts := SplitWs(t, 2);
      if |parts| < 2 then Failure(MissingTime(t))
      else
        var stamp := parts[0] + " " + parts[1];
        match ParseDateTime(stamp)
        case None => Failure(MalformedTimestamp(stamp))
        case Some(ts) => Success(Some(LogLine(ts, if |parts| == 3 then parts[2] else "")))
  }

  /** A line written as "<date> <time> <message>" reads back as that record. */
  lemma ParseLineFormatted(t: DateTime, message: string)
    requires Valid(t) && InDatetimeRange(t)
    requires Stripped(message)
    ensures ParseLine(FormatDateTime(t) + " " + message) == Success(Some(LogLine(t, message)))
  {
    var s := FormatDateTime(t);
    var line := s + " " + message;
    var stripped := s + (if message == [] then "" else " " + message);
    StripFormatted(t, message);
    FormattedParts(t, message);
    FormattedNoSpace(t);
    assert stripped[0] == s[0];
    Rejoin(s, 10);
    ParseFormatDateTime(t);
    ParseLineParts(line, s[..10], s[11..], message, t);
  }

  /** A line whose stripped form splits into a date, a time and a message reads as that record. */
  lemma ParseLineParts(line: string, date: string, time: string, message: string, t: DateTime)
    requires Strip(line) != [] && Strip(line)[0] != '#'
    requires SplitWs(Strip(line), 2) == if message == [] then [date, time] else [date, time, message]
    requires ParseDateTime(date + " " + time) == Some(t)
    ensures ParseLine(line) == Success(Some(LogLine(t, message)))
  {
    var parts := SplitWs(Strip(line), 2);
    assert !Skipped(line);
    if message == [] {
      assert parts == [date, time] && |parts| == 2;
    } else {
      assert parts == [date, time, message] && parts[2] == message;
    }
    assert parts[0] + " " + parts[1] == date + " " + time;
    assert ParseDateTime(parts[0] + " " + parts[1]) == Some(t);
  }

  /** The stripped line splits into the date, the time and the message, if any. */
  lemma FormattedParts(t: DateTime, message: string)
    requires Valid(t) && InDatetimeRange(t)
    requires Stripped(message)
    ensures var s := FormatDateTime(t);
      SplitWs(s + (if message == [] then "" else " " + message), 2) ==
      if message == [] then [s[..10], s[11..]] else [s[..10], s[11..], message]
  {
    var s := FormatDateTime(t);
    var a, b := s[..10], s[11..];
    FormattedNoSpace(t);
    assert s == a + " " + b;
    if message == [] {
      assert s + (if message == [] then "" else " " + message) == a + " " + b;
      SplitTwo(a, b);
    } else {
      assert s + (if message == [] then "" else " " + message) == a + " " + b + " " + message;
      SplitThree(a, b, message);
    }
  }

  lemma StripFormatted(t: DateTime, message: string)
    requires Valid(t) && InDatetimeRange(t)
    requires Stripped(message)
    ensures Strip(FormatDateTime(t) + " " + message) == FormatDateTime(t) + (if message == [] then "" else " " + message)
  {
    var s := FormatDateTime(t);
    FormattedNoSpace(t);
    StripJoined(s, message);
  }

  /** Joining two stripped texts with a space leaves nothing to strip but a space at the end. */
  lemma StripJoined(s: string, message: string)
    requires s != [] && Stripped(s) && Stripped(message)
    ensures Strip(s + " " + message) == s + (if message == [] then "" else " " + message)
  {
    if message == [] {
      assert s + " " + message == s + [' '];
      StripAppendSpace(s, ' ');
      StripStripped(s);
    } else {
      var line := s + " " + message;
      assert line[0] == s[0] && line[|line| - 1] == message[|message| - 1];
      StripStripped(line);
    }
  }

  /** The two halves of a formatted date and time are whitespace-free. */
  lemma FormattedNoSpace(t: DateTime)
    requires Valid(t) && InDatetimeRange(t)
    ensures FormatDateTime(t)[10] == ' '
    ensures NoSpace(FormatDateTime(t)[..10]) && NoSpace(FormatDateTime(t)[11..])
    ensures IsDigit(FormatDateTime(t)[0]) && IsDigit(FormatDateTime(t)[15])
  {
    ParseFormatDateTime(t);
    var s := FormatDateTime(t);
    assert DateTimeShape(s);
    assert forall i :: 0 <= i < 10 ==> s[..10][i] == s[i];
    assert forall i :: 0 <= i < 5 ==> s[11..][i] == s[11 + i];
  }

  // ---------------------------------------------------------------------------
  // Reading the log

  /** What one line of the file yields. */
  type Outcome = Result<Option<LogLine>, ParseError>

  /** The outcome of every line, in file order. */
  function Parsed(lines: seq<string>): (outs: seq<Outcome>)
    ensures |outs| == |lines|
    ensures forall i :: 0 <= i < |lines| ==> outs[i] == ParseLine(lines[i])
  {
    seq(|lines|, i requires 0 <= i < |lines| => ParseLine(lines[i]))
  }

  /**
   * Reading stops at the first failing line with its error; otherwise the
   * records of the lines that give one, in order.
   */
  function Collect(outs: seq<Outcome>): Result<seq<LogLine>, ParseError> {
    if outs == [] then Success([])
    else
      match Collect(outs[..|outs| - 1])
      case Failure(e) => Failure(e)
      case Success(rs) =>
        match outs[|outs| - 1]
        case Failure(e) => Failure(e)
        case Success(None) => Success(rs)
        case Success(Some(rec)) => Success(rs + [rec])
  }

  /** The records of the log in file order, or the error of the first line that cannot be read. */
  function ReadLog(lines: seq<string>): Result<seq<LogLine>, ParseError> {
    Collect(Parsed(lines))
  }

  /** The records carried by the outcomes, in order. */
  function Records(outs: seq<Outcome>): seq<LogLine> {
    if outs == [] then []
    else Records(outs[..|outs| - 1]) + (if outs[|outs| - 1].Success? && outs[|outs| - 1].value.Some? then [outs[|outs| - 1].value.value] else [])
  }

  /** Reading succeeds exactly when no line fails, and then yields every record in order. */
  lemma {:induction false} CollectSucceeds(outs: seq<Outcome>)
    ensures Collect(outs).Success? <==> forall i :: 0 <= i < |outs| ==> outs[i].Success?
    ensures Collect(outs).Success? ==> Collect(outs).value == Records(outs)
  {
    if outs != [] {
      var init := outs[..|outs| - 1];
      CollectSucceeds(init);
      assert forall i :: 0 <= i < |init| ==> init[i] == outs[i];
    }
  }

  /** The first failing line decides the error. */
  lemma {:induction false} CollectFirstError(outs: seq<Outcome>, i: nat)
    requires i < |outs| && outs[i].Failure?
    requires forall j :: 0 <= j < i ==> outs[j].Success?
    ensures Collect(outs) == Failure(outs[i].error)
    decreases |outs|
  {
    var init := outs[..|outs| - 1];
    if i < |outs| - 1 {
      assert init[i] == outs[i];
      assert forall j :: 0 <= j < i ==> init[j] == outs[j];
      CollectFirstError(init, i);
    } else {
      assert forall j :: 0 <= j < |init| ==> init[j] == outs[j];
      CollectSucceeds(init);
    }
  }

  /** Once a prefix fails to read, the whole file fails with the same error. */
  lemma {:induction false} CollectFailureStays(outs: seq<Outcome>, i: nat)
    requires i <= |outs| && Collect(outs[..i]).Failure?
    ensures Collect(outs) == Collect(outs[..i])
    decreases |outs| - i
  {
    if i < |outs| {
      assert outs[..i + 1][..i] == outs[..i];
      CollectFailureStays(outs, i + 1);
    } else {
      assert outs[..i] == outs;
    }
  }

  /** Files the records under the midnight of their day, keeping file order within a day. */
  function Group(rs: seq<LogLine>): Days {
    if rs == [] then map[]
    else
      var days := Group(rs[..|rs| - 1]);
      var rec := rs[|rs| - 1];
      var d := Midnight(rec.timestamp);
      days[d := (if d in days then days[d] else []) + [rec]]
  }

  /** What `parse_lines_new` returns for a log file. */
  function ReadDays(lines: seq<string>): Result<Days, ParseError> {
    match ReadLog(lines)
    case Failure(e) => Failure(e)
    case Success(rs) => Success(Group(rs))
  }

  /** The records of day `d`, in file order. */
  function OnDay(rs: seq<LogLine>, d: DateTime): seq<LogLine> {
    if rs == [] then []
    else OnDay(rs[..|rs| - 1], d) + (if Midnight(rs[|rs| - 1].timestamp) == d then [rs[|rs| - 1]] else [])
  }

  /**
   * Grouping keeps exactly the days that have records, and files under each day
   * all of that day's records and nothing else, in file order.
   */
  lemma {:induction false} GroupOnDay(rs: seq<LogLine>, d: DateTime)
    ensures d in Group(rs) <==> OnDay(rs, d) != []
    ensures d in Group(rs) ==> Group(rs)[d] == OnDay(rs, d)
  {
    if rs != [] {
      GroupOnDay(rs[..|rs| - 1], d);
    }
  }

  /** Every record filed under a day was written on that day; every key is a midnight. */
  lemma {:induction false} GroupSameDay(rs: seq<LogLine>, d: DateTime)
    requires d in Group(rs)
    ensures IsMidnight(d) && Group(rs)[d] != []
    ensures forall i :: 0 <= i < |Group(rs)[d]| ==> Midnight(Group(rs)[d][i].timestamp) == d
  {
    var init := rs[..|rs| - 1];
    var rec := rs[|rs| - 1];
    if d in Group(init) {
      GroupSameDay(init, d);
    }
  }

  /** Reading one more line after a readable prefix. */
  lemma CollectStep(outs: seq<Outcome>, i: nat)
    requires i < |outs| && Collect(outs[..i]).Success?
    ensures Collect(outs[..i + 1]) ==
      match outs[i]
      case Failure(e) => Failure(e)
      case Success(None) => Collect(outs[..i])
      case Success(Some(rec)) => Success(Collect(outs[..i]).value + [rec])
  {
    assert outs[..i + 1][..i] == outs[..i];
  }

  /** One more record is filed at the end of its day. */
  lemma GroupSnoc(rs: seq<LogLine>, rec: LogLine)
    ensures var d := Midnight(rec.timestamp);
      Group(rs + [rec]) == Group(rs)[d := (if d in Group(rs) then Group(rs)[d] else []) + [rec]]
  {
    assert (rs + [rec])[..|rs|] == rs;
  }

  /**
   * `parse_lines_new`: reads the file line by line, filing each record under its
   * day and stopping at the first line that cannot be read.
   */
  method ParseLines(lines: seq<string>) returns (res: Result<Days, ParseError>)
    ensures res == ReadDays(lines)
  {
    var days: Days := map[];
    ghost var rs: seq<LogLine> := [];
    ghost var outs := Parsed(lines);
    for i := 0 to |lines|
      invariant Collect(outs[..i]) == Success(rs)
      invariant days == Group(rs)
    {
      var out := ParseLine(lines[i]);
      assert out == outs[i];
      CollectStep(outs, i);
      match out {
        case Failure(e) =>
          CollectFailureStays(outs, i + 1);
          return Failure(e);
        case Success(None) =>
        case Success(Some(rec)) =>
          var d := Midnight(rec.timestamp);
          GroupSnoc(rs, rec);
          days := days[d := (if d in days then days[d] else []) + [rec]];
          rs := rs + [rec];
      }
    }
    assert outs[..|lines|] == outs;
    return Success(days);
  }

  // ---------------------------------------------------------------------------
  // Timelogs

  type Timelogs = map<DateTime, seq<Timelog>>

  /**
   * The timelog from `start` up to the record `cur`: project, log text and
   * slack flag all come from `cur`'s message.
   */
  function Pair(start: DateTime, cur: LogLine): Timelog {
    var (project, log) := ParseMessage(cur.message);
    var (isSlack, p, l) := FindSlack(project, log);
    Timelog(start, cur.timestamp, p, l, isSlack)
  }

  /** The timelogs of one day: one per pair of consecutive records. */
  function DayTimelogs(logs: seq<LogLine>): (r: seq<Timelog>)
    ensures |logs| >= 1 ==> |r| == |logs| - 1
    ensures |logs| == 0 ==> r == []
  {
    PairsUpTo(logs, |logs|)
  }

  /** The timelogs of the first `j` records of a day. */
  function PairsUpTo(logs: seq<LogLine>, j: nat): (r: seq<Timelog>)
    requires j <= |logs|
    ensures |r| == if j == 0 then 0 else j - 1
  {
    if j < 2 then []
    else PairsUpTo(logs, j - 1) + [Pair(logs[j - 2].timestamp, logs[j - 1])]
  }

  /** What `get_timelogs` returns: a day appears only when it has at least one pair. */
  function TimelogsOf(days: Days): Timelogs {
    map d | d in days && |days[d]| >= 2 :: DayTimelogs(days[d])
  }

  function Seconds(t: Timelog): int {
    SecondsBetween(t.start, t.end)
  }

  /** A timelog whose end comes before its start: the source logs a warning for it. */
  predicate Backwards(t: Timelog) {
    Seconds(t) < 0
  }

  /** Some timelog of the sequence runs backwards. */
  predicate SomeBackwards(tls: seq<Timelog>) {
    tls != [] && (SomeBackwards(tls[..|tls| - 1]) || Backwards(tls[|tls| - 1]))
  }

  lemma {:induction false} SomeBackwardsExists(tls: seq<Timelog>)
    ensures SomeBackwards(tls) <==> exists i :: 0 <= i < |tls| && Backwards(tls[i])
  {
    if tls != [] {
      var init := tls[..|tls| - 1];
      SomeBackwardsExists(init);
      if exists i :: 0 <= i < |init| && Backwards(init[i]) {
        var i :| 0 <= i < |init| && Backwards(init[i]);
        assert tls[i] == init[i];
      }
      if exists i :: 0 <= i < |tls| && Backwards(tls[i]) {
        var i :| 0 <= i < |tls| && Backwards(tls[i]);
        if i < |init| {
          assert tls[i] == init[i];
        }
      }
    }
  }

  /** Some day holds a timelog that runs backwards. */
  predicate AnyBackwards(tls: Timelogs) {
    exists d :: d in tls && SomeBackwards(tls[d])
  }

  /** One step of the walk over a day's records, past the first. */
  lemma DayPairsStep(logs: seq<LogLine>, j: nat, dayLogs: seq<Timelog>, t: Timelog)
    requires 1 <= j < |logs|
    requires dayLogs == PairsUpTo(logs, j)
    requires t == Pair(logs[j - 1].timestamp, logs[j])
    ensures dayLogs + [t] == PairsUpTo(logs, j + 1)
    ensures SomeBackwards(dayLogs + [t]) <==> SomeBackwards(dayLogs) || SecondsBetween(logs[j - 1].timestamp, logs[j].timestamp) < 0
  {
    BackwardsSnoc(dayLogs, t);
    PairEnds(logs[j - 1].timestamp, logs[j]);
  }

  /** A pair runs from the given start to the record's timestamp. */
  lemma PairEnds(start: DateTime, cur: LogLine)
    ensures Pair(start, cur).start == start && Pair(start, cur).end == cur.timestamp
  {
  }

  lemma BackwardsSnoc(tls: seq<Timelog>, t: Timelog)
    ensures SomeBackwards(tls + [t]) <==> SomeBackwards(tls) || Backwards(t)
  {
    assert (tls + [t])[..|tls|] == tls;
  }

  /**
   * The inner loop of `get_timelogs` for one day: walks the day's records,
   * remembering the previous timestamp, and pairs each later record with it.
   */
  method DayPairs(logs: seq<LogLine>) returns (dayLogs: seq<Timelog>, warned: bool)
    ensures dayLogs == DayTimelogs(logs)
    ensures warned <==> SomeBackwards(dayLogs)
  {
    var prev: Option<DateTime> := None;
    dayLogs := [];
    warned := false;
    for j := 0 to |logs|
      invariant prev == if j == 0 then None else Some(logs[j - 1].timestamp)
      invariant dayLogs == PairsUpTo(logs, j)
      invariant warned <==> SomeBackwards(dayLogs)
    {
      if prev.Some? {
        var t := Pair(prev.value, logs[j]);
        DayPairsStep(logs, j, dayLogs, t);
        dayLogs := dayLogs + [t];
        if SecondsBetween(prev.value, logs[j].timestamp) < 0 {
          warned := true;
        }
      }
      prev := Some(logs[j].timestamp);
    }
  }

  /** Adding one processed day to the timelogs of the days done so far. */
  lemma TimelogsOfAdd(days: Days, todo: set<DateTime>, d: DateTime)
    requires d in todo && todo <= days.Keys
    ensures TimelogsOf(days - (todo - {d})) ==
      if |days[d]| >= 2 then TimelogsOf(days - todo)[d := DayTimelogs(days[d])] else TimelogsOf(days - todo)
  {
  }

  /**
   * `get_timelogs`: reads the log, then pairs up the records of every day, in
   * whatever order the days come; `warned` tells whether a warning about time
   * running backwards was logged.
   */
  method GetTimelogs(lines: seq<string>) returns (res: Result<Timelogs, ParseError>, warned: bool)
    ensures ReadDays(lines).Failure? ==> res == Failure(ReadDays(lines).error)
    ensures ReadDays(lines).Success? ==> res == Success(TimelogsOf(ReadDays(lines).value))
    ensures warned <==> res.Success? && AnyBackwards(res.value)
  {
    var parsed := ParseLines(lines);
    if parsed.Failure? {
      return Failure(parsed.error), false;
    }
    var days := parsed.value;
    var out: Timelogs := map[];
    warned := false;
    var todo := days.Keys;
    while todo != {}
      invariant todo <= days.Keys
      invariant out == TimelogsOf(days - todo)
      invariant warned <==> AnyBackwards(out)
      decreases |todo|
    {
      var d :| d in todo;
      var dayLogs, dayWarned := DayPairs(days[d]);
      TimelogsOfAdd(days, todo, d);
      ghost var before := out;
      if dayLogs != [] {
        out := out[d := dayLogs];
      }
      BackwardsAdd(before, out, d, dayLogs);
      warned := warned || dayWarned;
      todo := todo - {d};
    }
    assert days - {} == days;
    return Success(out), warned;
  }

  lemma BackwardsAdd(before: Timelogs, after: Timelogs, d: DateTime, dayLogs: seq<Timelog>)
    requires d !in before
    requires after == if dayLogs != [] then before[d := dayLogs] else before
    ensures AnyBackwards(after) <==> AnyBackwards(before) || SomeBackwards(dayLogs)
  {
    if AnyBackwards(after) {
      var k :| k in after && SomeBackwards(after[k]);
      if k != d {
        assert k in before && after[k] == before[k];
      }
    }
    if AnyBackwards(before) {
      var k :| k in before && SomeBackwards(before[k]);
      assert k != d && k in after && after[k] == before[k];
    }
    if SomeBackwards(dayLogs) {
      assert d in after && after[d] == dayLogs;
    }
  }

  /** Each timelog of a day is the pair of one record with the next. */
  lemma DayTimelogsAt(logs: seq<LogLine>, i: nat)
    requires i + 1 < |logs|
    ensures DayTimelogs(logs)[i] == Pair(logs[i].timestamp, logs[i + 1])
  {
    PairsAt(logs, |logs|, i);
  }

  lemma {:induction false} PairsAt(logs: seq<LogLine>, j: nat, i: nat)
    requires i + 1 < j <= |logs|
    ensures PairsUpTo(logs, j)[i] == Pair(logs[i].timestamp, logs[i + 1])
  {
    if i + 2 < j {
      PairsAt(logs, j - 1, i);
      PairsKeep(logs, j, i);
    } else {
      PairsLast(logs, j);
    }
  }

  /** Taking one more record keeps the pairs already formed. */
  lemma PairsKeep(logs: seq<LogLine>, j: nat, i: nat)
    requires i + 2 < j <= |logs|
    ensures PairsUpTo(logs, j)[i] == PairsUpTo(logs, j - 1)[i]
  {
    var init := PairsUpTo(logs, j - 1);
    assert PairsUpTo(logs, j) == init + [Pair(logs[j - 2].timestamp, logs[j - 1])];
  }

  /** The pair formed by the last record taken. */
  lemma PairsLast(logs: seq<LogLine>, j: nat)
    requires 2 <= j <= |logs|
    ensures PairsUpTo(logs, j)[j - 2] == Pair(logs[j - 2].timestamp, logs[j - 1])
  {
    var init := PairsUpTo(logs, j - 1);
    assert PairsUpTo(logs, j) == init + [Pair(logs[j - 2].timestamp, logs[j - 1])];
  }

  /** Each timelog of a day runs from one record's timestamp to the next one's. */
  lemma DayTimelogsEndpoints(logs: seq<LogLine>)
    ensures forall i :: 0 <= i < |DayTimelogs(logs)| ==>
      DayTimelogs(logs)[i].start == logs[i].timestamp && DayTimelogs(logs)[i].end == logs[i + 1].timestamp
  {
    forall i | 0 <= i < |DayTimelogs(logs)|
      ensures DayTimelogs(logs)[i].start == logs[i].timestamp && DayTimelogs(logs)[i].end == logs[i + 1].timestamp
    {
      DayTimelogsAt(logs, i);
    }
  }

  /** The sum of the durations of a sequence of timelogs, in seconds. */
  function TotalSeconds(tls: seq<Timelog>): int {
    if tls == [] then 0 else TotalSeconds(tls[..|tls| - 1]) + Seconds(tls[|tls| - 1])
  }

  /**
   * The durations of a day's timelogs telescope: they add up to the time from
   * the first record to the last, backwards steps included.
   */
  lemma DaySpan(logs: seq<LogLine>)
    requires logs != []
    ensures TotalSeconds(DayTimelogs(logs)) == SecondsBetween(logs[0].timestamp, logs[|logs| - 1].timestamp)
  {
    PairsSpan(logs, |logs|);
  }

  lemma {:induction false} PairsSpan(logs: seq<LogLine>, j: nat)
    requires 1 <= j <= |logs|
    ensures TotalSeconds(PairsUpTo(logs, j)) == SecondsBetween(logs[0].timestamp, logs[j - 1].timestamp)
  {
    if j >= 2 {
      PairsSpan(logs, j - 1);
      var r := PairsUpTo(logs, j);
      assert r[..|r| - 1] == PairsUpTo(logs, j - 1);
      PairEnds(logs[j - 2].timestamp, logs[j - 1]);
    }
  }

  /**
   * Grouped records yield timelogs that each start and end on the day they are
   * filed under, one fewer than the day's records; a day with a single record
   * has none.
   */
  lemma TimelogsStayOnDay(rs: seq<LogLine>, d: DateTime)
    ensures d in TimelogsOf(Group(rs)) <==> d in Group(rs) && |Group(rs)[d]| >= 2
    ensures d in TimelogsOf(Group(rs)) ==>
      var tls := TimelogsOf(Group(rs))[d];
      |tls| == |Group(rs)[d]| - 1 &&
      forall i :: 0 <= i < |tls| ==> Midnight(tls[i].start) == d && Midnight(tls[i].end) == d
  {
    if d in TimelogsOf(Group(rs)) {
      var logs := Group(rs)[d];
      var tls := TimelogsOf(Group(rs))[d];
      assert tls == DayTimelogs(logs);
      GroupSameDay(rs, d);
      DayTimelogsEndpoints(logs);
      forall i | 0 <= i < |tls|
        ensures Midnight(tls[i].start) == d && Midnight(tls[i].end) == d
      {
        assert tls[i].start == logs[i].timestamp && tls[i].end == logs[i + 1].timestamp;
      }
    }
  }

  // ---------------------------------------------------------------------------
  // The report

  /** Work and slack tables, and the lists of the seconds added to each. */
  datatype Report = Report(work: Table, slack: Table, workTime: seq<int>, slackTime: seq<int>)

  /** One timelog's seconds go to exactly one table and to the matching list. */
  function AddTimelog(r: Report, t: Timelog): Report {
    var seconds := Seconds(t);
    if t.isSlack then Report(r.work, Bump(r.slack, t.project, t.log, seconds), r.workTime, r.slackTime + [seconds])
    else Report(Bump(r.work, t.project, t.log, seconds), r.slack, r.workTime + [seconds], r.slackTime)
  }

  /** Adds a sequence of timelogs, in order, to a report. */
  function AddAll(r: Report, tls: seq<Timelog>): Report {
    if tls == [] then r
    else AddTimelog(AddAll(r, tls[..|tls| - 1]), tls[|tls| - 1])
  }

  /** The report of a sequence of timelogs taken in order. */
  function Aggregate(tls: seq<Timelog>): Report {
    AddAll(Report(map[], map[], [], []), tls)
  }

  lemma {:induction false} AddAllAppend(r: Report, a: seq<Timelog>, b: seq<Timelog>)
    ensures AddAll(r, a + b) == AddAll(AddAll(r, a), b)
    decreases |b|
  {
    if b == [] {
      assert a + b == a;
    } else {
      assert (a + b)[..|a + b| - 1] == a + b[..|b| - 1];
      AddAllAppend(r, a, b[..|b| - 1]);
    }
  }

  /** Both ends of the report's date range are included. */
  predicate InRange(d: DateTime, from: DateTime, to: DateTime) {
    MinuteNumber(from) <= MinuteNumber(d) <= MinuteNumber(to)
  }

  /** The timelogs of the days in range, visiting the days in the given order. */
  function Selected(tls: Timelogs, from: DateTime, to: DateTime, order: seq<DateTime>): seq<Timelog> {
    if order == [] then []
    else
      var d := order[|order| - 1];
      Selected(tls, from, to, order[..|order| - 1]) + (if d in tls && InRange(d, from, to) then tls[d] else [])
  }


  lemma SelectedSnoc(tls: Timelogs, from: DateTime, to: DateTime, order: seq<DateTime>, d: DateTime)
    ensures Selected(tls, from, to, order + [d]) ==
      Selected(tls, from, to, order) + (if d in tls && InRange(d, from, to) then tls[d] else [])
  {
    assert (order + [d])[..|order|] == order;
  }

  /** The report after one more day of the iteration. */
  lemma SelectedStep(tls: Timelogs, from: DateTime, to: DateTime, order: seq<DateTime>, d: DateTime)
    requires d in tls
    ensures Aggregate(Selected(tls, from, to, order + [d])) ==
      if InRange(d, from, to) then AddAll(Aggregate(Selected(tls, from, to, order)), tls[d])
      else Aggregate(Selected(tls, from, to, order))
  {
    var prefix := Selected(tls, from, to, order);
    SelectedSnoc(tls, from, to, order, d);
    if InRange(d, from, to) {
      AddAllAppend(Report(map[], map[], [], []), prefix, tls[d]);
    } else {
      assert prefix + [] == prefix;
    }
  }

  /** `order` lists the keys of `keys` one by one, each exactly once. */
  ghost predicate Enumerates(order: seq<DateTime>, keys: set<DateTime>) {
    if order == [] then keys == {}
    else
      var last := order[|order| - 1];
      last in keys && Enumerates(order[..|order| - 1], keys - {last})
  }

  lemma EnumeratesAdd(order: seq<DateTime>, done: set<DateTime>, k: DateTime)
    requires Enumerates(order, done) && k !in done
    ensures Enumerates(order + [k], done + {k})
  {
    assert (order + [k])[..|order|] == order;
    assert (done + {k}) - {k} == done;
  }

  /** An enumeration has one entry per key, lists only keys, and repeats none. */
  lemma {:induction false} EnumeratesDistinct(order: seq<DateTime>, keys: set<DateTime>)
    requires Enumerates(order, keys)
    ensures |order| == |keys|
    ensures forall k :: k in keys <==> k in order
    ensures forall i, j :: 0 <= i < j < |order| ==> order[i] != order[j]
  {
    if order != [] {
      var init := order[..|order| - 1];
      var last := order[|order| - 1];
      EnumeratesDistinct(init, keys - {last});
      assert keys == (keys - {last}) + {last};
      assert forall k :: k in order <==> k in init || k == last;
    }
  }

  /** The report for one more timelog of the current day. */
  lemma ReportStep(start: Report, logs: seq<Timelog>, i: nat)
    requires i < |logs|
    ensures AddAll(start, logs[..i + 1]) == AddTimelog(AddAll(start, logs[..i]), logs[i])
  {
    assert logs[..i + 1][..i] == logs[..i];
  }

  /** The timelogs of one kind, slack or work, in order. */
  function OfKind(tls: seq<Timelog>, slack: bool): seq<Timelog> {
    if tls == [] then []
    else OfKind(tls[..|tls| - 1], slack) + (if tls[|tls| - 1].isSlack == slack then [tls[|tls| - 1]] else [])
  }

  /** The seconds of each timelog, in order. */
  function Durations(tls: seq<Timelog>): seq<int> {
    if tls == [] then [] else Durations(tls[..|tls| - 1]) + [Seconds(tls[|tls| - 1])]
  }

  /** The timelogs of one kind under one project and one log text, in order. */
  function Matching(tls: seq<Timelog>, slack: bool, project: string, log: string): seq<Timelog> {
    if tls == [] then []
    else
      var t := tls[|tls| - 1];
      Matching(tls[..|tls| - 1], slack, project, log) +
        (if Matches(t, slack, project, log) then [t] else [])
  }

  /** The table of one kind. */
  function TableOf(r: Report, slack: bool): Table {
    if slack then r.slack else r.work
  }

  /**
   * `work_time` lists the seconds of the work timelogs and `slack_time` those
   * of the slack timelogs, each in the order they were added.
   */
  lemma {:induction false} AggregateLists(tls: seq<Timelog>)
    ensures Aggregate(tls).workTime == Durations(OfKind(tls, false))
    ensures Aggregate(tls).slackTime == Durations(OfKind(tls, true))
  {
    if tls != [] {
      var init := tls[..|tls| - 1];
      var t := tls[|tls| - 1];
      assert tls == init + [t];
      AggregateLists(init);
      AddTimelogLists(Aggregate(init), t);
      KindSnoc(init, t, t.isSlack);
      KindSnoc(init, t, !t.isSlack);
      DurationsSnoc(OfKind(init, t.isSlack), t);
      assert OfKind(init, !t.isSlack) + [] == OfKind(init, !t.isSlack);
    }
  }

  /** One timelog adds its duration to the list of its own kind only. */
  lemma AddTimelogLists(r: Report, t: Timelog)
    ensures AddTimelog(r, t).workTime == r.workTime + (if t.isSlack then [] else [Seconds(t)])
    ensures AddTimelog(r, t).slackTime == r.slackTime + (if t.isSlack then [Seconds(t)] else [])
  {
    if t.isSlack {
      assert r.workTime + [] == r.workTime;
    } else {
      assert r.slackTime + [] == r.slackTime;
    }
  }

  lemma KindSnoc(init: seq<Timelog>, t: Timelog, slack: bool)
    ensures OfKind(init + [t], slack) == OfKind(init, slack) + (if t.isSlack == slack then [t] else [])
  {
    assert (init + [t])[..|init|] == init;
  }

  lemma DurationsSnoc(tls: seq<Timelog>, t: Timelog)
    ensures Durations(tls + [t]) == Durations(tls) + [Seconds(t)]
  {
    assert (tls + [t])[..|tls|] == tls;
  }

  lemma TotalSecondsSnoc(tls: seq<Timelog>, t: Timelog)
    ensures TotalSeconds(tls + [t]) == TotalSeconds(tls) + Seconds(t)
  {
    assert (tls + [t])[..|tls|] == tls;
  }

  lemma {:induction false} DurationsSum(tls: seq<Timelog>)
    ensures SeqSum(Durations(tls)) == TotalSeconds(tls)
  {
    if tls != [] {
      DurationsSum(tls[..|tls| - 1]);
    }
  }

  /** Every timelog is either work or slack. */
  lemma {:induction false} KindsSplit(tls: seq<Timelog>)
    ensures TotalSeconds(OfKind(tls, false)) + TotalSeconds(OfKind(tls, true)) == TotalSeconds(tls)
  {
    if tls != [] {
      var init := tls[..|tls| - 1];
      var t := tls[|tls| - 1];
      assert tls == init + [t];
      KindsSplit(init);
      KindSnoc(init, t, t.isSlack);
      KindSnoc(init, t, !t.isSlack);
      TotalSecondsSnoc(OfKind(init, t.isSlack), t);
      assert OfKind(init, !t.isSlack) + [] == OfKind(init, !t.isSlack);
    }
  }

  /** Together the two lists hold the seconds of all the timelogs. */
  lemma ListsCoverAll(tls: seq<Timelog>)
    ensures SeqSum(Aggregate(tls).workTime) + SeqSum(Aggregate(tls).slackTime) == TotalSeconds(tls)
  {
    AggregateLists(tls);
    DurationsSum(OfKind(tls, false));
    DurationsSum(OfKind(tls, true));
    KindsSplit(tls);
  }

  /** Each list adds up to the total of its table. */
  lemma {:induction false} ListsMatchTables(tls: seq<Timelog>)
    ensures SeqSum(Aggregate(tls).workTime) == TableTotal(Aggregate(tls).work)
    ensures SeqSum(Aggregate(tls).slackTime) == TableTotal(Aggregate(tls).slack)
  {
    if tls == [] {
      assert Subtotals(map[]) == map[];
    } else {
      var init := tls[..|tls| - 1];
      var t := tls[|tls| - 1];
      var r := Aggregate(init);
      ListsMatchTables(init);
      if t.isSlack {
        BumpTotal(r.slack, t.project, t.log, Seconds(t));
        SeqSumAppend(r.slackTime, [Seconds(t)]);
      } else {
        BumpTotal(r.work, t.project, t.log, Seconds(t));
        SeqSumAppend(r.workTime, [Seconds(t)]);
      }
    }
  }

  /** Whether a timelog goes to one kind's table under one project and log text. */
  predicate Matches(t: Timelog, slack: bool, project: string, log: string) {
    t.isSlack == slack && t.project == project && t.log == log
  }

  /** Adding one timelog changes one entry of one table, by its seconds, and creates its key. */
  lemma EntryStep(r: Report, t: Timelog, slack: bool, project: string, log: string)
    ensures Entry(TableOf(AddTimelog(r, t), slack), project, log) ==
      Entry(TableOf(r, slack), project, log) + (if Matches(t, slack, project, log) then Seconds(t) else 0)
    ensures var before, after := TableOf(r, slack), TableOf(AddTimelog(r, t), slack);
      (project in after && log in after[project]) <==>
      (project in before && log in before[project]) || Matches(t, slack, project, log)
  {
  }

  /**
   * Each entry of a table holds the seconds of exactly the timelogs of that
   * kind, project and log text.
   */
  lemma {:induction false} AggregateEntry(tls: seq<Timelog>, slack: bool, project: string, log: string)
    ensures Entry(TableOf(Aggregate(tls), slack), project, log) == TotalSeconds(Matching(tls, slack, project, log))
  {
    if tls != [] {
      var init := tls[..|tls| - 1];
      var t := tls[|tls| - 1];
      AggregateEntry(init, slack, project, log);
      assert Aggregate(tls) == AddTimelog(Aggregate(init), t);
      EntryStep(Aggregate(init), t, slack, project, log);
      var m := Matching(init, slack, project, log);
      if Matches(t, slack, project, log) {
        assert Matching(tls, slack, project, log) == m + [t];
        TotalSecondsSnoc(m, t);
      } else {
        assert Matching(tls, slack, project, log) == m + [];
        assert m + [] == m;
      }
    }
  }

  /** An entry exists exactly when some timelog of that kind, project and log text was added. */
  lemma {:induction false} AggregateKeys(tls: seq<Timelog>, slack: bool, project: string, log: string)
    ensures (project in TableOf(Aggregate(tls), slack) && log in TableOf(Aggregate(tls), slack)[project]) <==>
      Matching(tls, slack, project, log) != []
  {
    if tls != [] {
      var init := tls[..|tls| - 1];
      var t := tls[|tls| - 1];
      AggregateKeys(init, slack, project, log);
      assert Aggregate(tls) == AddTimelog(Aggregate(init), t);
      EntryStep(Aggregate(init), t, slack, project, log);
      var m := Matching(init, slack, project, log);
      if Matches(t, slack, project, log) {
        assert Matching(tls, slack, project, log) == m + [t];
      } else {
        assert Matching(tls, slack, project, log) == m + [];
        assert m + [] == m;
      }
    }
  }

  // ---------------------------------------------------------------------------
  // The tables do not depend on the order of the days

  /** No day is listed twice. */
  predicate Distinct(order: seq<DateTime>) {
    forall i, j :: 0 <= i < j < |order| ==> order[i] != order[j]
  }

  /** The timelogs of the days in `order` that go to one entry of one table. */
  function Kept(tls: Timelogs, from: DateTime, to: DateTime, order: seq<DateTime>, slack: bool, project: string, log: string): seq<Timelog> {
    Matching(Selected(tls, from, to, order), slack, project, log)
  }

  lemma {:induction false} SelectedAppend(tls: Timelogs, from: DateTime, to: DateTime, a: seq<DateTime>, b: seq<DateTime>)
    ensures Selected(tls, from, to, a + b) == Selected(tls, from, to, a) + Selected(tls, from, to, b)
    decreases |b|
  {
    if b == [] {
      assert a + b == a;
    } else {
      var init, d := b[..|b| - 1], b[|b| - 1];
      assert a + b == (a + init) + [d];
      assert b == init + [d];
      SelectedAppend(tls, from, to, a, init);
      SelectedSnoc(tls, from, to, a + init, d);
      SelectedSnoc(tls, from, to, init, d);
    }
  }

  lemma {:induction false} MatchingAppend(a: seq<Timelog>, b: seq<Timelog>, slack: bool, project: string, log: string)
    ensures Matching(a + b, slack, project, log) == Matching(a, slack, project, log) + Matching(b, slack, project, log)
    decreases |b|
  {
    if b == [] {
      assert a + b == a;
    } else {
      var init := b[..|b| - 1];
      assert (a + b)[..|a + b| - 1] == a + init;
      MatchingAppend(a, init, slack, project, log);
    }
  }

  lemma {:induction false} TotalSecondsAppend(a: seq<Timelog>, b: seq<Timelog>)
    ensures TotalSeconds(a + b) == TotalSeconds(a) + TotalSeconds(b)
    decreases |b|
  {
    if b == [] {
      assert a + b == a;
    } else {
      var init := b[..|b| - 1];
      assert (a + b)[..|a + b| - 1] == a + init;
      TotalSecondsAppend(a, init);
    }
  }

  /** What the days of `a + b` give to one entry is what `a` gives and then what `b` gives. */
  lemma KeptAppend(tls: Timelogs, from: DateTime, to: DateTime, a: seq<DateTime>, b: seq<DateTime>,
                   slack: bool, project: string, log: string)
    ensures var ka, kb := Kept(tls, from, to, a, slack, project, log), Kept(tls, from, to, b, slack, project, log);
      Kept(tls, from, to, a + b, slack, project, log) == ka + kb &&
      TotalSeconds(ka + kb) == TotalSeconds(ka) + TotalSeconds(kb)
  {
    SelectedAppend(tls, from, to, a, b);
    MatchingAppend(Selected(tls, from, to, a), Selected(tls, from, to, b), slack, project, log);
    TotalSecondsAppend(Kept(tls, from, to, a, slack, project, log), Kept(tls, from, to, b, slack, project, log));
  }

  /**
   * Two listings of the same days, each without repeats, give one entry the
   * same number of timelogs and the same seconds.
   */
  lemma {:induction false} KeptOrderFree(tls: Timelogs, from: DateTime, to: DateTime, o1: seq<DateTime>, o2: seq<DateTime>,
                                         slack: bool, project: string, log: string)
    requires Distinct(o1) && Distinct(o2) && |o1| == |o2|
    requires forall k :: k in o1 <==> k in o2
    ensures var k1, k2 := Kept(tls, from, to, o1, slack, project, log), Kept(tls, from, to, o2, slack, project, log);
      TotalSeconds(k1) == TotalSeconds(k2) && |k1| == |k2|
    decreases |o1|
  {
    if o1 != [] {
      var d := o1[|o1| - 1];
      assert d in o1;
      var j :| 0 <= j < |o2| && o2[j] == d;
      DropDay(o1, o2, j);
      var rest1, rest2 := o1[..|o1| - 1], o2[..j] + o2[j + 1..];
      KeptOrderFree(tls, from, to, rest1, rest2, slack, project, log);
      KeptLast(tls, from, to, o1, slack, project, log);
      KeptAt(tls, from, to, o2, j, slack, project, log);
    }
  }

  /** Taking the last day of `o1` out of both listings leaves two listings of the same days. */
  lemma DropDay(o1: seq<DateTime>, o2: seq<DateTime>, j: nat)
    requires Distinct(o1) && Distinct(o2) && |o1| == |o2| && forall k :: k in o1 <==> k in o2
    requires o1 != [] && j < |o2| && o2[j] == o1[|o1| - 1]
    ensures var rest1, rest2 := o1[..|o1| - 1], o2[..j] + o2[j + 1..];
      Distinct(rest1) && Distinct(rest2) && |rest1| == |rest2| && forall k :: k in rest1 <==> k in rest2
  {
    var d := o1[|o1| - 1];
    var rest1, rest2 := o1[..|o1| - 1], o2[..j] + o2[j + 1..];
    assert o1 == rest1 + [d];
    assert o2 == o2[..j] + [d] + o2[j + 1..];
    forall k ensures k in rest1 <==> k in rest2 {
      assert k in rest1 <==> k in o1 && k != d;
      assert k in rest2 <==> k in o2 && k != d;
    }
    forall i, i' | 0 <= i < i' < |rest2| ensures rest2[i] != rest2[i'] {
      var p := if i < j then i else i + 1;
      var p' := if i' < j then i' else i' + 1;
      assert rest2[i] == o2[p] && rest2[i'] == o2[p'];
    }
  }

  /** The day at position `j` of a listing adds its own timelogs to what the others give. */
  lemma KeptLast(tls: Timelogs, from: DateTime, to: DateTime, order: seq<DateTime>,
                 slack: bool, project: string, log: string)
    requires order != []
    ensures var whole, rest, day := Kept(tls, from, to, order, slack, project, log),
      Kept(tls, from, to, order[..|order| - 1], slack, project, log), Kept(tls, from, to, [order[|order| - 1]], slack, project, log);
      TotalSeconds(whole) == TotalSeconds(rest) + TotalSeconds(day) && |whole| == |rest| + |day|
  {
    assert order == order[..|order| - 1] + [order[|order| - 1]];
    KeptAppend(tls, from, to, order[..|order| - 1], [order[|order| - 1]], slack, project, log);
  }

  lemma KeptAt(tls: Timelogs, from: DateTime, to: DateTime, order: seq<DateTime>, j: nat,
               slack: bool, project: string, log: string)
    requires j < |order|
    ensures var whole, rest, day := Kept(tls, from, to, order, slack, project, log),
      Kept(tls, from, to, order[..j] + order[j + 1..], slack, project, log), Kept(tls, from, to, [order[j]], slack, project, log);
      TotalSeconds(whole) == TotalSeconds(rest) + TotalSeconds(day) && |whole| == |rest| + |day|
  {
    assert order == order[..j] + [order[j]] + order[j + 1..];
    KeptWithout(tls, from, to, order[..j], order[j], order[j + 1..], slack, project, log);
  }

  /** A day in the middle of a listing adds its own timelogs to what the others give. */
  lemma KeptWithout(tls: Timelogs, from: DateTime, to: DateTime, before: seq<DateTime>, d: DateTime, after: seq<DateTime>,
                    slack: bool, project: string, log: string)
    ensures var whole, rest, day := Kept(tls, from, to, before + [d] + after, slack, project, log),
      Kept(tls, from, to, before + after, slack, project, log), Kept(tls, from, to, [d], slack, project, log);
      TotalSeconds(whole) == TotalSeconds(rest) + TotalSeconds(day) && |whole| == |rest| + |day|
  {
    KeptAppend(tls, from, to, before, [d], slack, project, log);
    KeptAppend(tls, from, to, before + [d], after, slack, project, log);
    KeptAppend(tls, from, to, before, after, slack, project, log);
  }

  /**
   * Whatever order the dictionary yields the days in, the work and slack
   * tables come out the same, entry by entry and key by key.
   */
  lemma TablesOrderFree(tls: Timelogs, from: DateTime, to: DateTime, o1: seq<DateTime>, o2: seq<DateTime>,
                        slack: bool, project: string, log: string)
    requires Enumerates(o1, tls.Keys) && Enumerates(o2, tls.Keys)
    ensures var t1, t2 := TableOf(Aggregate(Selected(tls, from, to, o1)), slack), TableOf(Aggregate(Selected(tls, from, to, o2)), slack);
      Entry(t1, project, log) == Entry(t2, project, log) &&
      ((project in t1 && log in t1[project]) <==> (project in t2 && log in t2[project]))
  {
    EnumeratesDistinct(o1, tls.Keys);
    EnumeratesDistinct(o2, tls.Keys);
    KeptOrderFree(tls, from, to, o1, o2, slack, project, log);
    AggregateEntry(Selected(tls, from, to, o1), slack, project, log);
    AggregateEntry(Selected(tls, from, to, o2), slack, project, log);
    AggregateKeys(Selected(tls, from, to, o1), slack, project, log);
    AggregateKeys(Selected(tls, from, to, o2), slack, project, log);
  }

  /**
   * The inner loop of `calculate_report_and_get_time`: adds each timelog of
   * one day to the work or the slack table and list.
   */
  method AddDay(report: Report, logs: seq<Timelog>) returns (r: Report)
    ensures r == AddAll(report, logs)
  {
    var work, slack, workTime, slackTime := report.work, report.slack, report.workTime, report.slackTime;
    for i := 0 to |logs|
      invariant Report(work, slack, workTime, slackTime) == AddAll(report, logs[..i])
    {
      var l := logs[i];
      ReportStep(report, logs, i);
      var seconds := SecondsBetween(l.start, l.end);
      if l.isSlack {
        slack := Bump(slack, l.project, l.log, seconds);
        slackTime := slackTime + [seconds];
      } else {
        work := Bump(work, l.project, l.log, seconds);
        workTime := workTime + [seconds];
      }
    }
    assert logs[..|logs|] == logs;
    r := Report(work, slack, workTime, slackTime);
  }

  /**
   * The aggregation loop of `calculate_report_and_get_time`: adds up every
   * timelog of every day in range, visiting the days in whatever order the
   * dictionary yields them (`order`).
   */
  method AggregateRange(tls: Timelogs, from: DateTime, to: DateTime) returns (report: Report, ghost order: seq<DateTime>)
    ensures Enumerates(order, tls.Keys)
    ensures report == Aggregate(Selected(tls, from, to, order))
  {
    report := Report(map[], map[], [], []);
    order := [];
    var todo := tls.Keys;
    while todo != {}
      invariant todo <= tls.Keys
      invariant Enumerates(order, tls.Keys - todo)
      invariant report == Aggregate(Selected(tls, from, to, order))
      decreases |todo|
    {
      var date :| date in todo;
      SelectedStep(tls, from, to, order, date);
      if MinuteNumber(from) <= MinuteNumber(date) <= MinuteNumber(to) {
        report := AddDay(report, tls[date]);
      }
      EnumeratesAdd(order, tls.Keys - todo, date);
      order := order + [date];
      assert tls.Keys - (todo - {date}) == (tls.Keys - todo) + {date};
      todo := todo - {date};
    }
    assert tls.Keys - {} == tls.Keys;
  }

  /**
   * `calculate_report_and_get_time` without `today_work_time`: the report of
   * the days in range, and whether reading the timelogs logged a warning.
   */
  method CalculateReportAndGetTime(lines: seq<string>, from: DateTime, to: DateTime)
    returns (res: Result<Report, ParseError>, warned: bool, ghost order: seq<DateTime>)
    ensures ReadDays(lines).Failure? ==> res == Failure(ReadDays(lines).error)
    ensures ReadDays(lines).Success? ==>
      var tls := TimelogsOf(ReadDays(lines).value);
      Enumerates(order, tls.Keys) && res == Success(Aggregate(Selected(tls, from, to, order)))
    ensures warned <==> ReadDays(lines).Success? && AnyBackwards(TimelogsOf(ReadDays(lines).value))
  {
    var timelogs;
    timelogs, warned := GetTimelogs(lines);
    if timelogs.Failure? {
      return Failure(timelogs.error), warned, [];
    }
    var report;
    report, order := AggregateRange(timelogs.value, from, to);
    res := Success(report);
  }
}

=== FILE: tables.dfy ===
/**
 * The report tables of the log parser: `defaultdict(lambda: defaultdict(int))`
 * keyed by project and then by log text, holding accumulated seconds, with the
 * sums that relate them to the flat lists of durations.
 */
module Tables {

  /** Project -> log text -> seconds. */
  type Table = map<string, map<string, int>>

  function SeqSum(s: seq<int>): int {
    if s == [] then 0 else SeqSum(s[..|s| - 1]) + s[|s| - 1]
  }

  lemma {:induction false} SeqSumAppend(a: seq<int>, b: seq<int>)
    ensures SeqSum(a + b) == SeqSum(a) + SeqSum(b)
    decreases |b|
  {
    if b == [] {
      assert a + b == a;
    } else {
      assert (a + b)[..|a + b| - 1] == a + b[..|b| - 1];
      SeqSumAppend(a, b[..|b| - 1]);
    }
  }

  /** The sum of the values of a finite map, in no particular order. */
  ghost function MapSum<K>(m: map<K, int>): int
    decreases |m.Keys|
  {
    if m.Keys == {} then 0
    else
      var k :| k in m.Keys;
      assert m.Keys == (m - {k}).Keys + {k};
      m[k] + MapSum(m - {k})
  }

  /** Any key may be taken out first: the sum does not depend on the order. */
  lemma {:induction false} MapSumRemove<K>(m: map<K, int>, k: K)
    requires k in m
    ensures MapSum(m) == m[k] + MapSum(m - {k})
    decreases |m.Keys|
  {
    var j :| j in m.Keys && MapSum(m) == m[j] + MapSum(m - {j});
    if j != k {
      assert m.Keys == (m - {j}).Keys + {j};
      assert m.Keys == (m - {k}).Keys + {k};
      MapSumRemove(m - {j}, k);
      MapSumRemove(m - {k}, j);
      assert m - {j} - {k} == m - {k} - {j};
    }
  }

  /** Setting one entry changes the sum by the difference at that entry. */
  lemma MapSumUpdate<K>(m: map<K, int>, k: K, v: int)
    ensures MapSum(m[k := v]) == MapSum(m) - (if k in m then m[k] else 0) + v
  {
    var m' := m[k := v];
    MapSumRemove(m', k);
    assert m' - {k} == m - {k};
    if k in m {
      MapSumRemove(m, k);
    } else {
      assert m - {k} == m;
    }
  }

  /** The seconds stored under one project, one log text; absent entries count 0. */
  function Entry(t: Table, project: string, log: string): int {
    if project in t && log in t[project] then t[project][log] else 0
  }

  /** Per-project subtotals. */
  ghost function Subtotals(t: Table): map<string, int> {
    map p | p in t :: MapSum(t[p])
  }

  /** The sum of every entry of the table. */
  ghost function TableTotal(t: Table): int {
    MapSum(Subtotals(t))
  }

  /** `t[project][log] += seconds` on a two-level `defaultdict`. */
  function Bump(t: Table, project: string, log: string, seconds: int): (r: Table)
    ensures r.Keys == t.Keys + {project}
    ensures log in r[project]
    ensures Entry(r, project, log) == Entry(t, project, log) + seconds
    ensures forall p, l :: (p != project || l != log) ==> Entry(r, p, l) == Entry(t, p, l)
    ensures forall p :: p in t ==> t[p].Keys <= r[p].Keys
    ensures r[project].Keys == (if project in t then t[project].Keys else {}) + {log}
    ensures forall p :: p in t && p != project ==> r[p] == t[p]
  {
    var inner := if project in t then t[project] else map[];
    t[project := inner[log := (if log in inner then inner[log] else 0) + seconds]]
  }

  /** A bump changes only the subtotal of its project. */
  lemma SubtotalsBump(t: Table, project: string, log: string, seconds: int)
    ensures var r := Bump(t, project, log, seconds);
      Subtotals(r) == Subtotals(t)[project := MapSum(r[project])]
  {
    var r := Bump(t, project, log, seconds);
    var lhs, rhs := Subtotals(r), Subtotals(t)[project := MapSum(r[project])];
    assert lhs.Keys == rhs.Keys;
    forall p | p in lhs
      ensures lhs[p] == rhs[p]
    {
      if p != project {
        assert r[p] == t[p];
      }
    }
  }

  /** A bump adds its seconds to the table's total. */
  lemma BumpTotal(t: Table, project: string, log: string, seconds: int)
    ensures TableTotal(Bump(t, project, log, seconds)) == TableTotal(t) + seconds
  {
    var inner := if project in t then t[project] else map[];
    var inner' := inner[log := (if log in inner then inner[log] else 0) + seconds];
    MapSumUpdate(inner, log, (if log in inner then inner[log] else 0) + seconds);
    assert MapSum(inner') == MapSum(inner) + seconds;
    var r := Bump(t, project, log, seconds);
    SubtotalsBump(t, project, log, seconds);
    assert r[project] == inner';
    MapSumUpdate(Subtotals(t), project, MapSum(inner'));
    if project !in t {
      assert MapSum(inner) == 0;
    }
  }
}

=== FILE: text.dfy ===
/**
 * The Python 2 string built-ins the log parser and the helpers rely on:
 * `strip`/`lstrip`/`rstrip`, `rstrip('**')`, `startswith`/`endswith`,
 * `split(None, n)`, `split(': ', 1)`, `split('-')`, `int()` and `str()` of
 * integers. Whitespace is that of Python 2 byte strings (C `isspace`).
 */
module Text {
  import opened Wrappers

  predicate IsSpace(c: char) {
    c == ' ' || c == '\t' || c == '\n' || c == '\r' || c == '\U{000B}' || c == '\U{000C}'
  }

  predicate AllSpace(s: string) {
    forall i :: 0 <= i < |s| ==> IsSpace(s[i])
  }

  /** No whitespace anywhere: a single `split()` token. */
  predicate NoSpace(s: string) {
    forall i :: 0 <= i < |s| ==> !IsSpace(s[i])
  }

  /** Neither leading nor trailing whitespace, i.e. a fixed point of `strip()`. */
  predicate Stripped(s: string) {
    s == [] || (!IsSpace(s[0]) && !IsSpace(s[|s| - 1]))
  }

  /** Length of the leading whitespace run. */
  function LeadingSpace(s: string): (n: nat)
    ensures n <= |s| && AllSpace(s[..n])
    ensures n == |s| || !IsSpace(s[n])
  {
    if s != [] && IsSpace(s[0]) then
      var n := 1 + LeadingSpace(s[1..]);
      assert s[..n] == [s[0]] + s[1..][..n - 1];
      n
    else 0
  }

  /** Length of `s` without its trailing whitespace run. */
  function KeptBeforeTrailingSpace(s: string): (n: nat)
    ensures n <= |s| && AllSpace(s[n..])
    ensures n == 0 || !IsSpace(s[n - 1])
  {
    if s != [] && IsSpace(s[|s| - 1]) then
      var n := KeptBeforeTrailingSpace(s[..|s| - 1]);
      assert s[n..] == s[..|s| - 1][n..] + [s[|s| - 1]];
      n
    else |s|
  }

  /** `s.lstrip()` */
  function LStrip(s: string): string {
    s[LeadingSpace(s)..]
  }

  /** `s.rstrip()` */
  function RStrip(s: string): string {
    s[..KeptBeforeTrailingSpace(s)]
  }

  /** `s.strip()`: a slice of `s` with only whitespace around it, itself stripped. */
  function Strip(s: string): (r: string)
    ensures Stripped(r)
    ensures exists i :: 0 <= i <= |s| - |r| && s[i..i + |r|] == r && AllSpace(s[..i]) && AllSpace(s[i + |r|..])
  {
    var i := LeadingSpace(s);
    var k := KeptBeforeTrailingSpace(s[i..]);
    StripWitness(s, i, k);
    s[i..][..k]
  }

  /** `strip()` keeps `s[i..i + k]`, with only whitespace on either side. */
  lemma StripWitness(s: string, i: nat, k: nat)
    requires i == LeadingSpace(s) && k == KeptBeforeTrailingSpace(s[i..])
    ensures i + k <= |s| && |s[i..][..k]| == k && Stripped(s[i..][..k])
    ensures s[i..i + k] == s[i..][..k] && AllSpace(s[..i]) && AllSpace(s[i + k..])
  {
    var l := s[i..];
    var r := l[..k];
    assert r != [] ==> r[0] == s[i] && r[|r| - 1] == l[k - 1];
    assert s[i + k..] == l[k..];
  }

  /** A stripped string is left alone by `strip()`. */
  lemma StripStripped(s: string)
    requires Stripped(s)
    ensures Strip(s) == s
  {
  }

  lemma {:induction false} LeadingSpaceAppend(s: string, c: char)
    requires IsSpace(c)
    ensures LeadingSpace(s + [c]) == if LeadingSpace(s) == |s| then |s| + 1 else LeadingSpace(s)
  {
    if s == [] {
      assert s + [c] == [c];
      assert [c][1..] == [];
    } else if IsSpace(s[0]) {
      assert (s + [c])[1..] == s[1..] + [c];
      LeadingSpaceAppend(s[1..], c);
    }
  }

  /** A whitespace character at the end, such as a line's '\n', is stripped away. */
  lemma StripAppendSpace(s: string, c: char)
    requires IsSpace(c)
    ensures Strip(s + [c]) == Strip(s)
  {
    LeadingSpaceAppend(s, c);
    if LeadingSpace(s) < |s| {
      var l := LStrip(s);
      assert LStrip(s + [c]) == l + [c];
      RStripAppendSpace(l, c);
    }
  }

  lemma RStripAppendSpace(s: string, c: char)
    requires IsSpace(c)
    ensures RStrip(s + [c]) == RStrip(s)
  {
    var t := s + [c];
    assert t[..|t| - 1] == s;
    assert t[..KeptBeforeTrailingSpace(s)] == s[..KeptBeforeTrailingSpace(s)];
  }

  /** `s.rstrip('*')` (the source writes `rstrip('**')`, which names the same character set). */
  function RStripStars(s: string): (r: string)
    ensures |r| <= |s| && r == s[..|r|]
    ensures forall i :: |r| <= i < |s| ==> s[i] == '*'
    ensures r == [] || r[|r| - 1] != '*'
  {
    if s != [] && s[|s| - 1] == '*' then RStripStars(s[..|s| - 1]) else s
  }

  predicate StartsWith(s: string, prefix: string) {
    |prefix| <= |s| && s[..|prefix|] == prefix
  }

  predicate EndsWith(s: string, suffix: string) {
    |suffix| <= |s| && s[|s| - |suffix|..] == suffix
  }

  /** `s[:n]`: Python slicing never fails, it clips at the end of the string. */
  function Prefix(s: string, n: nat): (r: string)
    ensures |r| == if n <= |s| then n else |s|
    ensures StartsWith(s, r)
  {
    if n <= |s| then s[..n] else s
  }

  predicate OccursAt(s: string, pattern: string, i: int) {
    0 <= i && i + |pattern| <= |s| && s[i..i + |pattern|] == pattern
  }

  predicate Contains(s: string, pattern: string) {
    exists i :: 0 <= i <= |s| && OccursAt(s, pattern, i)
  }

  /** `s.find(pattern, from)` as an option: the first occurrence at or after `from`. */
  function FindFrom(s: string, pattern: string, from: nat): (r: Option<nat>)
    ensures r.Some? ==> from <= r.value && OccursAt(s, pattern, r.value)
    ensures r.Some? ==> forall j :: from <= j < r.value ==> !OccursAt(s, pattern, j)
    ensures r.None? ==> forall j :: from <= j ==> !OccursAt(s, pattern, j)
    decreases |s| - from
  {
    if from + |pattern| > |s| then None
    else if s[from..from + |pattern|] == pattern then Some(from)
    else FindFrom(s, pattern, from + 1)
  }

  /** Length of the leading run of non-whitespace characters. */
  function TokenLength(s: string): (n: nat)
    ensures n <= |s| && NoSpace(s[..n])
    ensures n == |s| || IsSpace(s[n])
  {
    if s == [] || IsSpace(s[0]) then 0
    else
      var n := 1 + TokenLength(s[1..]);
      assert s[..n] == [s[0]] + s[1..][..n - 1];
      n
  }

  /**
   * `s.split(None, maxsplit)`: whitespace-separated tokens, at most `maxsplit`
   * splits; the last part, once the limit is reached, is the rest of the string
   * with its leading whitespace removed and its trailing whitespace kept.
   */
  function SplitWs(s: string, maxsplit: nat): (parts: seq<string>)
    ensures |parts| <= maxsplit + 1
    decreases |s|
  {
    var t := LStrip(s);
    if t == [] then []
    else if maxsplit == 0 then [t]
    else
      var w := TokenLength(t);
      [t[..w]] + SplitWs(t[w..], maxsplit - 1)
  }

  /** `s` is exactly one whitespace-separated token, possibly surrounded by whitespace. */
  ghost predicate SingleToken(s: string) {
    exists i, j :: 0 <= i < j <= |s| && AllSpace(s[..i]) && NoSpace(s[i..j]) && AllSpace(s[j..])
  }

  lemma {:induction false} LStripAt(s: string, i: nat)
    requires i <= |s| && AllSpace(s[..i]) && (i == |s| || !IsSpace(s[i]))
    ensures LStrip(s) == s[i..]
  {
    if i > 0 {
      assert s[1..][..i - 1] == s[1..i];
      LStripAt(s[1..], i - 1);
    }
  }

  lemma {:induction false} TokenLengthAt(s: string, n: nat)
    requires n <= |s| && NoSpace(s[..n]) && (n == |s| || IsSpace(s[n]))
    ensures TokenLength(s) == n
  {
    if n > 0 {
      assert s[0] == s[..n][0];
      assert s[1..][..n - 1] == s[1..n];
      TokenLengthAt(s[1..], n - 1);
    }
  }

  /** `split(None, 1)` yields a single part exactly for single-token strings. */
  lemma SplitOnceSingle(s: string)
    ensures |SplitWs(s, 1)| == 1 <==> SingleToken(s)
  {
    if |SplitWs(s, 1)| == 1 {
      OnePartSingle(s);
    }
    if SingleToken(s) {
      SingleOnePart(s);
    }
  }

  lemma OnePartSingle(s: string)
    requires |SplitWs(s, 1)| == 1
    ensures SingleToken(s)
  {
    var t := LStrip(s);
    var i := |s| - |t|;
    var w := TokenLength(t);
    assert SplitWs(t[w..], 0) == [];
    assert LStrip(t[w..]) == [];
    assert s[i..i + w] == t[..w];
    assert s[i + w..] == t[w..];
    assert 0 <= i < i + w <= |s| && AllSpace(s[..i]) && NoSpace(s[i..i + w]) && AllSpace(s[i + w..]);
  }

  lemma SingleOnePart(s: string)
    requires SingleToken(s)
    ensures |SplitWs(s, 1)| == 1
  {
    var t := LStrip(s);
    var a, b :| 0 <= a < b <= |s| && AllSpace(s[..a]) && NoSpace(s[a..b]) && AllSpace(s[b..]);
    assert !IsSpace(s[a..b][0]);
    LStripAt(s, a);
    assert t == s[a..];
    assert t[..b - a] == s[a..b];
    TokenLengthAt(t, b - a);
    assert t[b - a..] == s[b..];
    LStripAt(s[b..], |s| - b);
  }

  /** A leading token is split off as it stands. */
  lemma SplitWsToken(tok: string, rest: string, maxsplit: nat)
    requires tok != [] && NoSpace(tok) && (rest == [] || IsSpace(rest[0])) && maxsplit > 0
    ensures SplitWs(tok + rest, maxsplit) == [tok] + SplitWs(rest, maxsplit - 1)
  {
    var s := tok + rest;
    LStripAt(s, 0);
    assert s[..|tok|] == tok;
    TokenLengthAt(s, |tok|);
    assert s[|tok|..] == rest;
  }

  /** Leading whitespace is skipped. */
  lemma SplitWsSpace(c: char, rest: string, maxsplit: nat)
    requires IsSpace(c)
    ensures SplitWs([c] + rest, maxsplit) == SplitWs(rest, maxsplit)
  {
    var s := [c] + rest;
    assert s[1..] == rest;
    assert LStrip(s) == LStrip(rest);
  }

  /** Once the limit is reached the rest is one part. */
  lemma SplitWsLast(c: string)
    requires c != [] && !IsSpace(c[0])
    ensures SplitWs(c, 0) == [c]
  {
    LStripAt(c, 0);
  }

  /** What `split(None, 0)` leaves of a space followed by the rest of a line. */
  lemma SplitRest(c: string)
    requires c == [] || !IsSpace(c[0])
    ensures SplitWs(" " + c, 0) == if c == [] then [] else [c]
  {
    assert " " + c == [' '] + c;
    SplitWsSpace(' ', c, 0);
    if c == [] {
      LStripAt(c, 0);
    } else {
      SplitWsLast(c);
    }
  }

  lemma SplitSkipSpace(b: string, c: string)
    ensures SplitWs(" " + b + " " + c, 1) == SplitWs(b + " " + c, 1)
  {
    var t1 := b + " " + c;
    assert " " + b + " " + c == [' '] + t1;
    SplitWsSpace(' ', t1, 1);
  }

  lemma SplitSecondToken(b: string, c: string)
    requires b != [] && NoSpace(b)
    ensures SplitWs(b + " " + c, 1) == [b] + SplitWs(" " + c, 0)
  {
    assert b + " " + c == b + (" " + c);
    SplitWsToken(b, " " + c, 1);
  }

  lemma SplitSecond(b: string, c: string)
    requires b != [] && NoSpace(b)
    requires c == [] || !IsSpace(c[0])
    ensures SplitWs(" " + b + " " + c, 1) == [b] + (if c == [] then [] else [c])
  {
    SplitSkipSpace(b, c);
    SplitSecondToken(b, c);
    SplitRest(c);
  }

  /** Cutting out a space and putting it back gives the same string. */
  lemma Rejoin(s: string, k: nat)
    requires k < |s| && s[k] == ' '
    ensures s[..k] + " " + s[k + 1..] == s
  {
  }

  /** Two tokens glued by one space split back into themselves under `split(None, 2)`. */
  lemma SplitTwo(a: string, b: string)
    requires a != [] && b != [] && NoSpace(a) && NoSpace(b)
    ensures SplitWs(a + " " + b, 2) == [a, b]
  {
    var r := " " + b;
    assert a + " " + b == a + r;
    SplitWsToken(a, r, 2);
    SplitSpacedToken(b);
  }

  /** A space then one token splits, once, into that token. */
  lemma SplitSpacedToken(b: string)
    requires b != [] && NoSpace(b)
    ensures SplitWs(" " + b, 1) == [b]
  {
    assert " " + b == [' '] + b;
    SplitWsSpace(' ', b, 1);
    SplitLoneToken(b);
  }

  /** One token alone splits, once, into itself. */
  lemma SplitLoneToken(b: string)
    requires b != [] && NoSpace(b)
    ensures SplitWs(b, 1) == [b]
  {
    assert b + [] == b;
    SplitWsToken(b, [], 1);
    assert SplitWs([], 0) == [];
  }

  /** Tokens glued by single spaces split back into themselves under `split(None, 2)`. */
  lemma SplitThree(a: string, b: string, c: string)
    requires a != [] && b != [] && NoSpace(a) && NoSpace(b)
    requires c == [] || !IsSpace(c[0])
    ensures SplitWs(a + " " + b + " " + c, 2) == if c == [] then [a, b] else [a, b, c]
  {
    var r1 := " " + b + " " + c;
    Glue(a, b, c);
    SplitWsToken(a, r1, 2);
    SplitSecond(b, c);
    ListThree(a, b, c);
  }

  lemma Glue(a: string, b: string, c: string)
    ensures a + " " + b + " " + c == a + (" " + b + " " + c)
  {
  }

  lemma ListThree(a: string, b: string, c: string)
    ensures [a] + ([b] + (if c == [] then [] else [c])) == if c == [] then [a, b] else [a, b, c]
  {
  }

  /** `s.split(sep)`: every part, empty ones included, in order. */
  function SplitOn(s: string, sep: char): (parts: seq<string>)
    ensures |parts| >= 1
    ensures forall k :: 0 <= k < |parts| ==> sep !in parts[k]
  {
    if s == [] then [[]]
    else
      var rest := SplitOn(s[1..], sep);
      if s[0] == sep then [[]] + rest else [[s[0]] + rest[0]] + rest[1..]
  }

  /** `sep.join(parts)` */
  function Join(parts: seq<string>, sep: char): string
    requires |parts| >= 1
  {
    if |parts| == 1 then parts[0] else parts[0] + [sep] + Join(parts[1..], sep)
  }

  /** Splitting and joining again gives back the original string. */
  lemma {:induction false} JoinSplitOn(s: string, sep: char)
    ensures Join(SplitOn(s, sep), sep) == s
  {
    if s != [] {
      var rest := SplitOn(s[1..], sep);
      JoinSplitOn(s[1..], sep);
      if s[0] != sep {
        var parts := SplitOn(s, sep);
        assert parts[1..] == rest[1..];
        if |rest| > 1 {
          assert rest == [rest[0]] + rest[1..];
        }
      }
    }
  }

  /** Splitting a join of separator-free parts gives back the parts. */
  lemma {:induction false} SplitOnJoin(parts: seq<string>, sep: char)
    requires |parts| >= 1
    requires forall k :: 0 <= k < |parts| ==> sep !in parts[k]
    ensures SplitOn(Join(parts, sep), sep) == parts
  {
    if |parts| == 1 {
      SplitOnFree(parts[0], sep);
    } else {
      SplitOnJoin(parts[1..], sep);
      SplitOnPrefix(parts[0], Join(parts[1..], sep), sep);
    }
  }

  lemma {:induction false} SplitOnFree(s: string, sep: char)
    requires sep !in s
    ensures SplitOn(s, sep) == [s]
  {
    if s != [] {
      SplitOnFree(s[1..], sep);
      assert [s[0]] + s[1..] == s;
    }
  }

  lemma {:induction false} SplitOnPrefix(a: string, b: string, sep: char)
    requires sep !in a
    ensures SplitOn(a + [sep] + b, sep) == [a] + SplitOn(b, sep)
  {
    if a == [] {
      assert a + [sep] + b == [sep] + b;
      assert ([sep] + b)[1..] == b;
    } else {
      assert (a + [sep] + b)[1..] == a[1..] + [sep] + b;
      SplitOnPrefix(a[1..], b, sep);
      assert [a[0]] + a[1..] == a;
    }
  }

  // Decimal numerals

  predicate IsDigit(c: char) {
    '0' <= c <= '9'
  }

  predicate AllDigits(s: string) {
    forall i :: 0 <= i < |s| ==> IsDigit(s[i])
  }

  function DigitValue(c: char): (d: nat)
    requires IsDigit(c)
    ensures d < 10
  {
    (c as int - '0' as int) as nat
  }

  function DigitChar(d: nat): (c: char)
    requires d < 10
    ensures IsDigit(c) && DigitValue(c) == d
  {
    (d + '0' as int) as char
  }

  /** The value of a decimal numeral (leading zeros allowed). */
  function DigitsValue(s: string): nat
    requires AllDigits(s)
  {
    if s == [] then 0 else 10 * DigitsValue(s[..|s| - 1]) + DigitValue(s[|s| - 1])
  }

  /** `str(n)` for a non-negative integer: no leading zeros. */
  function NatToString(n: nat): (r: string)
    ensures r != [] && AllDigits(r)
    ensures |r| > 1 ==> r[0] != '0'
  {
    if n < 10 then [DigitChar(n)] else NatToString(n / 10) + [DigitChar(n % 10)]
  }

  lemma {:induction false} NatToStringValue(n: nat)
    ensures DigitsValue(NatToString(n)) == n
  {
    if n >= 10 {
      var r := NatToString(n);
      assert r[..|r| - 1] == NatToString(n / 10);
      NatToStringValue(n / 10);
    }
  }

  /** A leading zero does not change the value of a numeral. */
  lemma {:induction false} LeadingZero(d: string)
    requires AllDigits(d)
    ensures AllDigits("0" + d) && DigitsValue("0" + d) == DigitsValue(d)
  {
    var s := "0" + d;
    assert forall i :: 0 < i < |s| ==> s[i] == d[i - 1];
    if d != [] {
      assert s[..|s| - 1] == "0" + d[..|d| - 1];
      LeadingZero(d[..|d| - 1]);
    }
  }

  /** `str(i)` for any integer. */
  function IntToString(i: int): string {
    if i < 0 then "-" + NatToString(-i) else NatToString(i)
  }

  /**
   * Python 2's `int(s)` on a string: surrounding whitespace, an optional sign,
   * then one or more digits. Whitespace between the sign and the digits is
   * skipped too, so `int('- 5') == -5`.
   */
  function ParseInt(s: string): Option<int> {
    ParseSigned(Strip(s))
  }

  /** `int()` once the surrounding whitespace is gone. */
  function ParseSigned(t: string): Option<int> {
    if t != [] && (t[0] == '-' || t[0] == '+') then
      var d := LStrip(t[1..]);
      if d != [] && AllDigits(d) then
        Some(if t[0] == '-' then -(DigitsValue(d) as int) else DigitsValue(d))
      else None
    else if t != [] && AllDigits(t) then Some(DigitsValue(t))
    else None
  }

  /** A sign, any whitespace, then digits: the whitespace after the sign is skipped. */
  lemma ParseSignedSpaced(w: string, d: string, n: nat)
    requires AllSpace(w) && d != [] && AllDigits(d) && DigitsValue(d) == n
    ensures ParseInt("+" + w + d) == Some(n as int)
    ensures ParseInt("-" + w + d) == Some(-(n as int))
  {
    assert IsDigit(d[0]) && IsDigit(d[|d| - 1]);
    var rest := w + d;
    LStripAt(rest, |w|);
    assert rest[|w|..] == d && rest[..|w|] == w;
    assert ("-" + w + d)[0] == '-' && ("-" + w + d)[1..] == rest;
    assert ("+" + w + d)[0] == '+' && ("+" + w + d)[1..] == rest;
    SignedDigits("-" + w + d, d, n);
    SignedDigits("+" + w + d, d, n);
  }

  /** A sign, then text whose `lstrip()` is digits, reads as the signed value of the digits. */
  lemma SignedDigits(s: string, d: string, n: nat)
    requires |s| > 1 && (s[0] == '-' || s[0] == '+') && IsDigit(s[|s| - 1])
    requires d != [] && AllDigits(d) && LStrip(s[1..]) == d && DigitsValue(d) == n
    ensures s[0] == '-' ==> ParseInt(s) == Some(-(n as int))
    ensures s[0] == '+' ==> ParseInt(s) == Some(n as int)
  {
    assert !IsSpace(s[0]) && !IsSpace(s[|s| - 1]);
    StripStripped(s);
    SignedValue(s, d, n);
  }

  lemma SignedValue(t: string, d: string, n: nat)
    requires |t| > 1 && (t[0] == '-' || t[0] == '+')
    requires d != [] && AllDigits(d) && LStrip(t[1..]) == d && DigitsValue(d) == n
    ensures t[0] == '-' ==> ParseSigned(t) == Some(-(n as int))
    ensures t[0] == '+' ==> ParseSigned(t) == Some(n as int)
  {
  }

  /** `int(str(i)) == i` */
  lemma IntToStringRoundTrip(i: int)
    ensures ParseInt(IntToString(i)) == Some(i)
  {
    if i < 0 {
      NegativeRoundTrip(i);
    } else {
      NatRoundTrip(i);
    }
  }

  lemma NatRoundTrip(n: nat)
    ensures ParseInt(NatToString(n)) == Some(n as int)
  {
    NatToStringValue(n);
    var d := NatToString(n);
    DigitsStripped(d);
    assert d[0] != '-' && d[0] != '+';
  }

  lemma NegativeRoundTrip(i: int)
    requires i < 0
    ensures ParseInt("-" + NatToString(-i)) == Some(i)
  {
    var n: nat := -i;
    NatToStringValue(n);
    ParseNegative(NatToString(n), n);
  }

  /** A '-' followed by digits reads as the negated value of the digits. */
  lemma ParseNegative(d: string, n: nat)
    requires d != [] && AllDigits(d) && DigitsValue(d) == n
    ensures ParseInt("-" + d) == Some(-(n as int))
  {
    var s := "-" + d;
    assert s[1..] == d && s[|s| - 1] == d[|d| - 1];
    assert IsDigit(d[0]) && IsDigit(d[|d| - 1]);
    LStripAt(d, 0);
    SignedDigits(s, d, n);
  }

  lemma DigitsStripped(d: string)
    requires d != [] && AllDigits(d)
    ensures Strip(d) == d && !IsSpace(d[|d| - 1])
  {
    assert IsDigit(d[0]) && IsDigit(d[|d| - 1]);
    StripStripped(d);
  }

  /** `str(i)` for a non-negative integer holds no '-'. */
  lemma NatToStringNoDash(n: nat)
    ensures '-' !in NatToString(n) && '-' !in IntToString(n)
  {
    var r := NatToString(n);
    assert forall k :: 0 <= k < |r| ==> r[k] != '-';
  }
}

=== FILE: wrappers.dfy ===
/** Failure-compatible wrappers shared by the model. */
module Wrappers {

  /** A value that may be absent (Python's `None`). */
  datatype Option<+T> = None | Some(value: T)

  /** The outcome of an operation that may raise: a value or an error. */
  datatype Result<+T, +E> = Success(value: T) | Failure(error: E) {
    predicate IsFailure() {
      Failure?
    }

    function PropagateFailure<U>(): Result<U, E>
      requires Failure?
    {
      Failure(error)
    }

    function Extract(): T
      requires Success?
    {
      value
    }
  }
}
